=== FILE: README.md ===
# Snake with path planners, modelled in Dafny

The original is a single-file Python game, `main.py`. A snake moves on a
20 × 20 grid of 24-pixel cells (480 // 24). It eats food to grow, shrinks
when it hits one of the obstacles, and resets to one cell at (12, 12) when it
runs into itself or the edge. The snake is driven by one of four players:

- a human, who queues directions from key presses;
- a recursive depth-first search;
- a breadth-first search with a FIFO queue and a parent map;
- an A* search over a priority queue.

Each planner plans from the head to the food. The breadth- and depth-first
planners treat the obstacles and the snake's tail as walls. A* treats only
the tail as a wall and adds a penalty of 50 to the priority of obstacle
cells.

The model is a set of Dafny modules that follow the program's structure:

- `Grid` (`grid.dfy`): the four directions with their unit vectors and
  `reverse`, cells with `+` and `-`, the out-of-bounds test, and the board as
  the set of its 400 cells.
- `Paths` (`paths.dfy`): walks as sequences of directions applied to a start
  cell; which walks avoid a wall set; reachability.
- `ParentChain` (`parents.dfy`): the parent map shared by breadth-first search
  and A*, and the loop that rebuilds a path from it.
- `Snakes` (`snake.dfy`): the snake record and `reset`, `turn`, `move`, `eat`
  and `hit_obstacle` as pure functions.
- `DepthFirst` (`dfs.dfy`), `BreadthFirst` (`bfs.dfy`) and `AStar`
  (`astar.dfy`): the three planners. They are stated against `Paths`:
  - what a returned plan does;
  - that a missing plan means no suitable walk exists;
  - for breadth-first search, that no walk is shorter.
- `Players` (`player.dfy`): the direction buffer (`chosen_path`), key presses,
  and each player's `search_path`.
- `Game` (`game.dfy`): the state-update part of one frame of `SnakeGame.run`.
- `Optional` (`optional.dfy`): the `Option` result type.

Random choices become inputs:

- the heading a reset picks is a parameter;
- the cell the food jumps to is any board cell off the body and the obstacles;
- the obstacle cells are given, as a sequence in the order the game iterates
  over them, on distinct cells as start-up placement leaves them
  (main.py:225-230).

Behaviour of the code that the model reproduces, and that a reader might not
expect:

- `check_bounds` answers true when a cell is *off* the board.
- `turn` refuses a reversal whenever the target *length* exceeds one, even
  when the body is a single cell. Right after a reset the snake therefore
  cannot turn back (`Snakes.ResetRefusesReversal`).
- `move` counts the tail cell that is about to be vacated as a collision, so
  a snake chasing its own tail resets (`Snakes.TailChaseResets`).
- After `hit_obstacle` a full-length body is one cell longer than `length`
  until the next `move` trims it (`Snakes.ObstacleShrinks`).
- Food relocated by `eat` is off the body at that moment. An obstacle hit
  later in the same frame can reset the snake onto the food's cell.
- Depth-first search tests for the goal before the bounds and wall tests, so
  the goal itself may be a wall.
- Breadth-first search tests for the goal when a cell is enqueued. Because
  the start is pre-visited, a start equal to the goal gives no path.
- A* tests for the goal when a cell is popped, so a start equal to the goal
  gives the empty path. `search_path` treats the empty path like a failure
  and resets the snake.
- A* puts a cell on its queue at most once. A shorter route found later still
  rewrites the cell's parent and g score, even for a cell that was never
  enqueued because it is on the snake.

## Model

| member | source | states |
|---|---|---|
| Grid.GridSides | main.py:14-18 | The board is 480 // 24 = 20 cells wide and 20 cells high. |
| Grid.FromDelta | main.py:31-36 | `Direction(vector)` finds the direction whose unit vector is exactly the given vector, and finds none for any other vector. |
| Grid.Reverse | main.py:38-40 | `reverse` yields the direction whose vector is the negation of the original's. |
| Grid.ReverseInvolution | main.py:38-40 | Reversing twice gives back the direction, and no direction is its own reverse. |
| Grid.StepRoundTrip | main.py:73-81 | `(p + d) - p` is d's vector, and looking that vector up as a direction gives d back. |
| Grid.DeltaRoundTrip | main.py:73-81 | When `child - parent` is a unit vector, stepping from the parent in that direction lands on the child. |
| Grid.BoardIsGrid | main.py:51-52 | The board holds exactly the cells for which `check_bounds` is false, and there are 400 of them. |
| Snakes.Reset | main.py:134-139 | A reset snake is valid, flagged as just reset, and has score 0 and a single cell at (12, 12). |
| Snakes.Turn | main.py:144-148 | The heading is left unchanged exactly when the length exceeds one and d is the reverse of the current heading; otherwise it becomes d. No other field changes. |
| Snakes.TurnNeverReverses | main.py:144-148 | A snake longer than one never ends up heading opposite to its previous heading. |
| Snakes.TurnIdempotent | main.py:144-148 | Turning twice to the same direction is the same as turning once. |
| Snakes.ResetRefusesReversal | main.py:134-148 | A freshly reset one-cell snake refuses to turn back, because the guard reads the length and not the body. |
| Snakes.Move | main.py:150-166 | A collision gives exactly the reset snake. Otherwise the new head leads, the old body follows truncated to the length, and the reset flag clears. Validity is kept and the body never exceeds the length. |
| Snakes.MoveGrows | main.py:160-164 | A snake shorter than its length grows by one cell at the head and keeps its whole old body. |
| Snakes.MoveVacatesTail | main.py:160-164 | A snake at full length keeps its size: the new head is prepended and the last cell dropped. |
| Snakes.TailChaseResets | main.py:165-166 | A curled snake whose head steps onto its own departing tail cell is reset. |
| Snakes.SelfReverseIgnored | main.py:144-164 | A long snake asked to reverse keeps going straight. |
| Snakes.Eat | main.py:168-173 | On the food, length and score each rise by exactly one and the food moves to a cell off the body. Off the food, nothing changes. Validity is kept. |
| Snakes.HitObstacle | main.py:175-180 | On the obstacle, length and score each drop by one and the snake resets exactly when the length reaches zero. Off the obstacle, nothing changes. Validity is kept. |
| Snakes.HitKeepsBody | main.py:175-180 | A snake longer than one survives a hit with its body intact and its length one less. |
| Snakes.ObstacleShrinks | main.py:175-180 | A full-length snake of four that moves onto an obstacle keeps all four cells, with length 3, score -1 and no reset. So after a hit the body is longer than the length until the next move. |
| Snakes.HitAll | main.py:272-273 | Checking every obstacle in turn leaves the snake untouched when its head is on none of them. With obstacles on distinct cells, a head on one of them costs a snake longer than one exactly one length and one point, body kept. A snake of length one ends reset at the centre. In every case the body is as it was or at the centre, and validity is kept. |
| ParentChain.Reconstruct | main.py:436-440 | Walking the parent links back from the goal terminates, because the rank strictly falls along every link. The rebuilt path leads from start to goal through open cells and is no longer than the goal's rank. |
| DepthFirst.Explore | main.py:324-342 | A found path leads to the goal standing only on open cells before its last step. A miss means every cell the call marked visited has all its neighbours settled. |
| DepthFirst.Dfs | main.py:321-344 | A start equal to the goal gives the empty path, and a blocked start gives no path. A returned path reaches the goal standing only on open cells before the last step. No path is returned only when no such walk exists. |
| BreadthFirst.Bfs | main.py:347-369 | A returned path leads from start to goal through cells that are on the board and off the walls, and no such walk is shorter. No path comes back exactly when the start is the goal or the goal is unreachable. |
| BreadthFirst.Visit | main.py:355-369 | Examining one neighbour leaves the search as it was when the cell was already seen. An unseen cell that cannot be entered is only marked visited. An unseen open cell is marked, appended to the queue with the current cell as parent, and put one layer out. A path comes back only when that appended cell is the goal, and then it is a shortest one. The search invariant is kept. |
| BreadthFirst.Pop | main.py:352-353 | The queue front is removed and returned, and nothing else in the search changes, so expansion follows FIFO order with the search invariant intact. When the popped cell lies one step further out, every cell of the previous layer has been expanded and every cell within the new layer's distance has been discovered. |
| BreadthFirst.NextLayer | main.py:352-358 | A popped cell one step further out than the current layer means every discovered cell of the earlier layers has been expanded, so every cell within the new distance has been discovered. |
| BreadthFirst.LevelUp | main.py:352-358 | Once every cell within `level` steps has been expanded, every cell within `level + 1` steps has been discovered. |
| BreadthFirst.Discover | main.py:358-362 | A cell first seen while expanding layer `level` is at distance `level + 1`, and no walk reaches it sooner. |
| AStar.Least | main.py:431 | `queue.get()` hands out an item that no other queued item precedes in (priority, counter) order. |
| AStar.LeastIsFirst | main.py:455-462 | Because each counter is used once, the least item is unique and every other item comes strictly after it. |
| AStar.AStarSearch | main.py:411-462 | A start equal to the goal gives the empty path. A returned path leads to the goal through board cells off the snake, with obstacles allowed. No path comes back exactly when the goal is unreachable that way. |
| AStar.Relax | main.py:442-462 | Relaxing one neighbour keeps g strictly falling along parent links and keeps the visited set and queue in step. The queue holds at most one item per cell and none for a popped cell. An open neighbour ends up enqueued, now or earlier. |
| AStar.Improve | main.py:446-449 | Rewriting a cell's parent and g to a better score through the popped cell keeps g strictly falling along every parent link. |
| AStar.GoalPopped | main.py:435-440 | When the goal is popped, the parent links are ready to be walked back: rooted at the start, pointing only to open cells or the start. |
| AStar.Exhausted | main.py:429-433 | An emptied queue means the goal cannot be reached. |
| Players.NextStep | main.py:193-199 | With an empty buffer, moving reports true and changes nothing. Otherwise the first buffered direction is removed and the snake turns to it. |
| Players.Press | main.py:317-318 | A human's key press is appended to the end of the buffer. For a planner, a key press changes nothing. |
| Players.PressThenStep | main.py:193-199 | Key presses are followed first in, first out: pressing then stepping equals stepping then pressing when the buffer is not empty. |
| Players.PressIntoEmpty | main.py:193-199 | A direction pressed into an empty buffer is turned to on the very next step. |
| Players.SearchPath | main.py:469-511 | A non-empty plan replaces the buffer. No plan, or an empty one, resets the snake and keeps the buffer. Breadth-first plans are shortest. Each planner gives up exactly when the head is on the food or the food is unreachable in that planner's sense. A human player does nothing. |
| Game.Steer | main.py:267-269 | Replanning happens exactly when the buffer was empty or the snake was just reset. Otherwise one buffered direction is consumed and turned to. After a replan, the second step takes the first direction of the buffer then in place: for a human the old buffer, after an abandoned search the old buffer on the reset snake, and after an adopted plan that plan, which leads from the head to the food as its planner promises; a breadth-first plan is also no longer than any other such walk. A replan is manual exactly for a human. A planner gives up exactly when the head is on the food or the food is unreachable in that planner's sense. The snake stays valid and does not grow. |
| Game.Advance | main.py:270-273 | The head steps to the cell ahead. On a collision the body becomes the single centre cell. Onto a free cell, the head arrives there, and length, score and food change exactly when that cell held the food. Onto one of distinct obstacles, a snake longer than one arrives with one less length and score and the food stays; a snake of length one is reset. Whenever the snake survives the step, the old body follows the new head exactly as `move` lays it out, and the heading is kept. Validity is kept and food stays on the board off the obstacles. |
| Game.Tick | main.py:267-273 | A frame keeps the world sound: a valid snake, food on the board off every obstacle, and obstacles on distinct cells. Obstacles stay put. The head ends one step from its old cell or from the centre, or on the centre. While a plan is followed, the buffer loses exactly its first step and the snake takes that step, with the outcomes of `Game.Advance`, including the body behind the head. A frame replans exactly when the buffer was empty or the snake was just reset. The outcome is manual exactly for a human, and abandoned exactly when the head is on the food or the food is unreachable in the planner's sense. An adopted plan is one its planner vouches for, with its first step already taken. After a manual or abandoned replan the buffer has lost up to two steps, and after an abandoned one the head is at or next to the centre. Relocated food is off the body unless an obstacle sent the snake back to the centre. |

## Left out

- Rendering: the pygame drawing, fonts, window and clock, `drawPath` and `draw_visited`. The player's `visited` set only feeds `draw_visited`, so it is left out too.
- Event handling and the game's plumbing: `handle_events`, `change_player`, `change_FPS`, the `RESTART` and `FPS` globals, and `asyncio` in `run` and `main`. None of it changes the game state beyond what `Players.Press` models.
- `heuristic_search` (main.py:372-408): no player calls it.
- The random heading of `reset`: a `Direction` parameter (`Game.Draws` for a whole frame).
- `randomize_position` and its bookkeeping in the global `GameNode.nodes`: the food's new cell is any board cell off the body and off the obstacles, chosen with `:|`.
- Obstacle generation at start-up: the obstacle cells are an input.
- `website/script.js`: page scripting with no game logic.
- Game.Tick and Game.Advance: require `|body| + 1 + |obstacle cells| < 400` on every frame, even one where nothing is eaten, and counts a body cell lying on an obstacle twice. This guarantees a free cell for the food, without which the original's food placement would loop forever. With the 40 obstacles the game places (main.py:225-230), it holds while the body has fewer than 359 cells. A longer snake is outside the model.
- Snakes.Move: requires a non-empty body and a positive length. Every reachable snake has both (`Snakes.Valid`), and the original would fail on an empty body.
- AStar.AStarSearch: states nothing about the length of the returned path. The obstacle penalty and the once-only enqueueing mean the original does not promise a shortest path.
- The A* unreached sentinel is the float `100000.0` in the original (main.py:425) and the integer 100000 here. Every other g score is an integer there too: the start's is 0 and each update adds 1 (main.py:427, main.py:449). The finite scores never exceed 401.
- Python's recursion limit: depth-first search recurses at most once per board cell (400 deep), which the model does not bound.

=== FILE: astar.dfy ===
/**
 * `a_star`: best-first search over a priority queue of `(priority, i, cell)`
 * items, where priority = heuristic + g + obstacle penalty and i is an
 * insertion counter. Only the snake's tail and the board edge block a cell;
 * obstacles only make a cell less attractive. The goal is tested when a cell
 * is popped, so a start equal to the goal yields the empty path. A cell is
 * enqueued at most once, but a shorter route found later still rewrites its
 * parent and g score.
 */
module AStar {

  import opened Optional
  import opened Grid
  import opened Paths
  import opened ParentChain

  /** The g score every board cell starts at (a float in the original; an integer here). */
  const Unreached: nat := 100000

  /** Added to the priority, never to g, of a cell holding an obstacle. */
  const Penalty: nat := 50

  function Abs(n: int): nat {
    if n < 0 then -n else n
  }

  /** Manhattan distance to the goal. */
  function Heuristic(c: Cell, goal: Cell): nat {
    Abs(c.x - goal.x) + Abs(c.y - goal.y)
  }

  /** A queue item `(priority, i, cell)`; the counter i is never reused, so the cell never breaks a tie. */
  datatype Entry = Entry(priority: int, order: nat, cell: Cell)

  /** Tuple comparison on (priority, i): the order `queue.get()` follows. */
  predicate Before(a: Entry, b: Entry) {
    a.priority < b.priority || (a.priority == b.priority && a.order < b.order)
  }

  /** The cells that have an item in the queue. */
  function QueuedCells(q: set<Entry>): set<Cell> {
    set e | e in q :: e.cell
  }

  /** The item `queue.get()` hands out: nothing in the queue comes before it. */
  method Least(q: set<Entry>) returns (e: Entry)
    requires q != {}
    ensures e in q
    ensures forall x | x in q :: !Before(x, e)
  {
    e :| e in q;
    var rest := q - {e};
    while rest != {}
      invariant e in q && rest <= q
      invariant forall x | x in q - rest :: !Before(x, e)
      decreases |rest|
    {
      var x :| x in rest;
      assert q - (rest - {x}) == (q - rest) + {x};
      if Before(x, e) {
        e := x;
      }
      rest := rest - {x};
    }
  }

  /** With distinct counters the least item is unique: every other item comes strictly after it. */
  lemma LeastIsFirst(q: set<Entry>, e: Entry)
    requires forall a, b | a in q && b in q && a.order == b.order :: a == b
    requires e in q && forall x | x in q :: !Before(x, e)
    ensures forall x | x in q && x != e :: Before(e, x)
  {
  }

  /** The queue, visited set, parent map, g scores and counter of a search in progress. */
  datatype Search = Search(queue: set<Entry>, visited: set<Cell>, parents: map<Cell, Link>,
                           g: map<Cell, nat>, counter: nat)

  /** The item the start is enqueued with. */
  function First(start: Cell, goal: Cell): Entry {
    Entry(Heuristic(start, goal), 0, start)
  }

  /** The state before the loop: every board cell at the sentinel, the start at 0 and enqueued. */
  function Initial(start: Cell, goal: Cell): Search {
    var g := map c | c in Board() :: Unreached;
    Search({First(start, goal)}, {start}, map[start := Root], g[start := 0], 1)
  }

  /** g covers the board and the start, is 0 at the start, and ranks the parent tree. */
  ghost predicate Scored(parents: map<Cell, Link>, g: map<Cell, nat>, start: Cell) {
    && (forall c | InGrid(c) :: c in g)
    && start in g && g[start] == 0
    && Rooted(parents, start, g)
  }

  /**
   * What the visited set and the parent map record, given enq (every cell
   * ever enqueued) and popped (every cell taken off the queue).
   */
  ghost predicate Tracked(visited: set<Cell>, parents: map<Cell, Link>, g: map<Cell, nat>,
                          enq: set<Cell>, popped: set<Cell>, start: Cell, goal: Cell, snake: set<Cell>) {
    && start in enq && enq <= visited && enq <= parents.Keys
    && popped <= enq && goal !in popped
    && (forall c | c in enq :: c == start || Open(c, snake))
    && (forall c | c in enq :: c in g && g[c] < Unreached)
    && (forall c | c in visited && Open(c, snake) :: c in enq)
    && (forall c | c in g && g[c] < Unreached :: c in visited)
    && (forall n | n in parents && parents[n].From? :: parents[n].parent in popped)
  }

  /** Queue items: enqueued, not yet popped cells, one item per cell, distinct counters below the next one. */
  ghost predicate Queued(q: set<Entry>, enq: set<Cell>, popped: set<Cell>, counter: nat) {
    && (forall e | e in q :: e.cell in enq && e.cell !in popped && e.order < counter)
    && (forall a, b | a in q && b in q && a.order == b.order :: a == b)
    && (forall a, b | a in q && b in q && a.cell == b.cell :: a == b)
    && (forall c | c in enq :: c in popped || c in QueuedCells(q))
  }

  /** No finite g score exceeds the number of cells popped. */
  ghost predicate Bounded(g: map<Cell, nat>, popped: set<Cell>) {
    forall c | c in g && g[c] < Unreached :: g[c] <= |popped|
  }

  /** Every open neighbour of an expanded cell has been enqueued. */
  ghost predicate Closed(done: set<Cell>, enq: set<Cell>, snake: set<Cell>) {
    forall u, d | u in done && Open(Add(u, d), snake) :: Add(u, d) in enq
  }

  /** What holds at the top of the `while True` loop; done holds the cells popped and expanded. */
  ghost predicate Searching(s: Search, enq: set<Cell>, done: set<Cell>, start: Cell, goal: Cell, snake: set<Cell>) {
    && Scored(s.parents, s.g, start)
    && Tracked(s.visited, s.parents, s.g, enq, done, start, goal, snake)
    && Queued(s.queue, enq, done, s.counter)
    && Bounded(s.g, done)
    && Closed(done, enq, snake)
    && (done == {} ==> s.queue == {First(start, goal)})
    && (done != {} ==> start in done)
  }

  /** What holds while the neighbours of the popped cell cur are being relaxed. */
  ghost predicate Relaxing(cur: Cell, s: Search, enq: set<Cell>, done: set<Cell>, start: Cell, goal: Cell, snake: set<Cell>) {
    && Scored(s.parents, s.g, start)
    && Tracked(s.visited, s.parents, s.g, enq, done + {cur}, start, goal, snake)
    && Queued(s.queue, enq, done + {cur}, s.counter)
    && Bounded(s.g, done + {cur})
    && Closed(done, enq, snake)
    && cur !in done && cur in s.g && s.g[cur] + 1 <= |done + {cur}|
    && (done == {} ==> cur == start)
    && (done != {} ==> start in done)
  }

  /**
   * A returned path leads from start to the goal entering only board cells
   * off the snake's tail (obstacles allowed); the start itself gives the
   * empty path. None comes back exactly when no such walk exists.
   */
  method AStarSearch(start: Cell, goal: Cell, obstacles: set<Cell>, snake: set<Cell>)
    returns (r: Option<seq<Direction>>)
    ensures start == goal ==> r == Some([])
    ensures r.Some? ==> Leads(start, r.value, goal, snake)
    ensures r.None? <==> !Reachable(start, goal, snake)
  {
    var s := Initial(start, goal);
    ghost var enq := {start};
    ghost var done: set<Cell> := {};
    Begin(start, goal, snake);
    while s.queue != {}
      invariant Searching(s, enq, done, start, goal, snake)
      decreases |Board() - s.visited| + |s.queue|
    {
      ghost var budget := |Board() - s.visited| + |s.queue| - 1;
      var e := Least(s.queue);
      var cur := e.cell;
      if cur == goal {
        GoalPopped(s, e, enq, done, start, goal, snake);
        var path := Reconstruct(s.parents, start, goal, s.g, snake);
        return Some(path);
      }
      Popped(s, e, enq, done, start, goal, snake);
      s := s.(queue := s.queue - {e});
      var i := 0;
      while i < 4
        invariant i <= 4
        invariant Relaxing(cur, s, enq, done, start, goal, snake)
        invariant Covered(cur, Directions[..i], enq, snake)
        invariant |Board() - s.visited| + |s.queue| <= budget
      {
        s, enq := Relax(cur, Directions[i], Directions[..i], s, enq, done, start, goal, obstacles, snake);
        PrefixStep(Directions, i);
        i := i + 1;
      }
      PrefixWhole(Directions);
      Expanded(cur, s, enq, done, start, goal, snake);
      done := done + {cur};
    }
    Exhausted(s, enq, done, start, goal, snake);
    return None;
  }

  lemma Begin(start: Cell, goal: Cell, snake: set<Cell>)
    ensures Searching(Initial(start, goal), {start}, {}, start, goal, snake)
  {
    var s := Initial(start, goal);
    BoardIsGrid();
    assert QueuedCells(s.queue) == {start};
  }

  /** The goal is popped: the parent tree is ready to be walked back from it. */
  lemma GoalPopped(s: Search, e: Entry, enq: set<Cell>, done: set<Cell>, start: Cell, goal: Cell, snake: set<Cell>)
    requires Searching(s, enq, done, start, goal, snake)
    requires e in s.queue && e.cell == goal
    ensures Rooted(s.parents, start, s.g) && ParentsOpen(s.parents, start, snake)
    ensures goal in s.parents && (goal == start || Open(goal, snake))
    ensures s.g[start] == 0
  {
  }

  /** Taking a non-goal cell off the queue starts its expansion. */
  lemma Popped(s: Search, e: Entry, enq: set<Cell>, done: set<Cell>, start: Cell, goal: Cell, snake: set<Cell>)
    requires Searching(s, enq, done, start, goal, snake)
    requires e in s.queue && e.cell != goal
    ensures Relaxing(e.cell, s.(queue := s.queue - {e}), enq, done, start, goal, snake)
  {
    var cur := e.cell;
    var q' := s.queue - {e};
    forall c | c in enq
      ensures c in done + {cur} || c in QueuedCells(q')
    {
      if c !in done && c != cur {
        var x :| x in s.queue && x.cell == c;
        assert x in q';
      }
    }
  }

  /**
   * One pass of `for d in Direction`: a board neighbour whose g score
   * improves gets cur as parent and the better score; if it was never seen
   * it is marked visited, and unless it is on the snake it is enqueued.
   */
  method Relax(cur: Cell, d: Direction, ghost covered: seq<Direction>, s: Search, ghost enq: set<Cell>,
               ghost done: set<Cell>, ghost start: Cell, goal: Cell, obstacles: set<Cell>, snake: set<Cell>)
    returns (s': Search, ghost enq': set<Cell>)
    requires Relaxing(cur, s, enq, done, start, goal, snake)
    requires Covered(cur, covered, enq, snake)
    ensures Relaxing(cur, s', enq', done, start, goal, snake)
    ensures Covered(cur, covered + [d], enq', snake)
    ensures |Board() - s'.visited| + |s'.queue| <= |Board() - s.visited| + |s.queue|
  {
    s', enq' := s, enq;
    var n := Add(cur, d);
    if !OutOfBounds(n, Width, Height) && s.g[n] > s.g[cur] + 1 {
      RelaxStep(cur, d, covered, s, enq, done, start, goal, snake);
      var g' := s.g[n := s.g[cur] + 1];
      var parents' := s.parents[n := From(cur)];
      if n !in s.visited {
        MarkCell(s.visited, n);
        BoardIsGrid();
        if n !in snake {
          var penalty := if n in obstacles then Penalty else 0;
          var e := Entry(Heuristic(n, goal) + g'[n] + penalty, s.counter, n);
          QueueGrows(s.queue, enq, done + {cur}, s.counter, e);
          s' := Search(s.queue + {e}, s.visited + {n}, parents', g', s.counter + 1);
          enq' := enq + {n};
        } else {
          s' := s.(visited := s.visited + {n}, parents := parents', g := g');
        }
      } else {
        assert s.visited + {n} == s.visited;
        s' := s.(parents := parents', g := g');
      }
    } else {
      Unimproved(cur, d, covered, s, enq, done, start, goal, snake);
    }
  }

  /** A better route to board cell n through cur keeps g ranking the parent tree. */
  lemma Improve(cur: Cell, n: Cell, parents: map<Cell, Link>, g: map<Cell, nat>, start: Cell)
    requires Scored(parents, g, start)
    requires cur in parents && cur in g && InGrid(n) && g[n] > g[cur] + 1
    requires FromDelta(Sub(n, cur).0, Sub(n, cur).1).Some?
    ensures Scored(parents[n := From(cur)], g[n := g[cur] + 1], start)
  {
  }

  /** The cells enqueued once n has been relaxed: n joins them exactly when it was unseen and off the snake. */
  function Grown(enq: set<Cell>, n: Cell, visited: set<Cell>, snake: set<Cell>): set<Cell> {
    if n !in visited && n !in snake then enq + {n} else enq
  }

  /** Relaxing board cell n from the popped cell cur keeps the visited set and the parent map in step. */
  lemma TrackRelax(visited: set<Cell>, parents: map<Cell, Link>, g: map<Cell, nat>, enq: set<Cell>, popped: set<Cell>,
                   start: Cell, goal: Cell, snake: set<Cell>, cur: Cell, n: Cell)
    requires Tracked(visited, parents, g, enq, popped, start, goal, snake)
    requires cur in popped && cur in g && InGrid(n) && n in g && g[n] > g[cur] + 1 && g[cur] + 1 < Unreached
    ensures Tracked(visited + {n}, parents[n := From(cur)], g[n := g[cur] + 1], Grown(enq, n, visited, snake),
                    popped, start, goal, snake)
  {
  }

  /** The improved score g[cur] + 1 stays within the bound. */
  lemma BoundRelax(g: map<Cell, nat>, popped: set<Cell>, cur: Cell, n: Cell)
    requires Bounded(g, popped)
    requires cur in g && g[cur] + 1 <= |popped|
    ensures Bounded(g[n := g[cur] + 1], popped)
  {
  }

  /** Enqueueing a cell that was never enqueued, with the next counter. */
  lemma QueueGrows(q: set<Entry>, enq: set<Cell>, popped: set<Cell>, counter: nat, e: Entry)
    requires Queued(q, enq, popped, counter)
    requires e.cell !in enq && e.order == counter && popped <= enq
    ensures Queued(q + {e}, enq + {e.cell}, popped, counter + 1)
  {
    assert QueuedCells(q + {e}) == QueuedCells(q) + {e.cell};
  }

  /** However n is relaxed, an open n ends up enqueued: already, or now. */
  lemma CoverRelax(cur: Cell, d: Direction, covered: seq<Direction>, visited: set<Cell>, enq: set<Cell>,
                   done: set<Cell>, snake: set<Cell>)
    requires Closed(done, enq, snake) && Covered(cur, covered, enq, snake)
    requires InGrid(Add(cur, d))
    requires forall c | c in visited && Open(c, snake) :: c in enq
    ensures Closed(done, Grown(enq, Add(cur, d), visited, snake), snake)
    ensures Covered(cur, covered + [d], Grown(enq, Add(cur, d), visited, snake), snake)
  {
  }

  /** What relaxing board cell n from cur establishes, whichever way the visited and snake tests go. */
  lemma RelaxStep(cur: Cell, d: Direction, covered: seq<Direction>, s: Search, enq: set<Cell>, done: set<Cell>,
                  start: Cell, goal: Cell, snake: set<Cell>)
    requires Relaxing(cur, s, enq, done, start, goal, snake)
    requires Covered(cur, covered, enq, snake)
    requires InGrid(Add(cur, d)) && s.g[Add(cur, d)] > s.g[cur] + 1
    ensures Scored(s.parents[Add(cur, d) := From(cur)], s.g[Add(cur, d) := s.g[cur] + 1], start)
    ensures Tracked(s.visited + {Add(cur, d)}, s.parents[Add(cur, d) := From(cur)], s.g[Add(cur, d) := s.g[cur] + 1],
                    Grown(enq, Add(cur, d), s.visited, snake), done + {cur}, start, goal, snake)
    ensures Bounded(s.g[Add(cur, d) := s.g[cur] + 1], done + {cur})
    ensures Closed(done, Grown(enq, Add(cur, d), s.visited, snake), snake)
    ensures Covered(cur, covered + [d], Grown(enq, Add(cur, d), s.visited, snake), snake)
  {
    CoverRelax(cur, d, covered, s.visited, enq, done, snake);
    var n := Add(cur, d);
    StepRoundTrip(cur, d);
    PoppedFew(done + {cur}, enq, start, snake);
    Improve(cur, n, s.parents, s.g, start);
    TrackRelax(s.visited, s.parents, s.g, enq, done + {cur}, start, goal, snake, cur, n);
    BoundRelax(s.g, done + {cur}, cur, n);
  }

  /** A neighbour off the board or with no better score: nothing changes, and an open one was enqueued earlier. */
  lemma Unimproved(cur: Cell, d: Direction, covered: seq<Direction>, s: Search, enq: set<Cell>, done: set<Cell>,
                   start: Cell, goal: Cell, snake: set<Cell>)
    requires Relaxing(cur, s, enq, done, start, goal, snake)
    requires Covered(cur, covered, enq, snake)
    requires OutOfBounds(Add(cur, d), Width, Height) || s.g[Add(cur, d)] <= s.g[cur] + 1
    ensures Covered(cur, covered + [d], enq, snake)
  {
    var n := Add(cur, d);
    if Open(n, snake) {
      PoppedFew(done + {cur}, enq, start, snake);
      assert s.g[n] < Unreached;
    }
  }

  /** The popped cells lie on the board or at the start, so there are at most 401 of them. */
  lemma PoppedFew(popped: set<Cell>, enq: set<Cell>, start: Cell, snake: set<Cell>)
    requires popped <= enq
    requires forall c | c in enq :: c == start || Open(c, snake)
    ensures |popped| <= 401
  {
    BoardIsGrid();
    SubsetCard(popped, Board() + {start});
  }

  /** Once all four neighbours of cur have been relaxed, cur joins the expanded cells. */
  lemma Expanded(cur: Cell, s: Search, enq: set<Cell>, done: set<Cell>, start: Cell, goal: Cell, snake: set<Cell>)
    requires Relaxing(cur, s, enq, done, start, goal, snake)
    requires Covered(cur, Directions, enq, snake)
    ensures Searching(s, enq, done + {cur}, start, goal, snake)
  {
    CoveredAll(cur, enq, snake);
  }

  /** An emptied queue: every enqueued cell was expanded, and the goal was never popped. */
  lemma Exhausted(s: Search, enq: set<Cell>, done: set<Cell>, start: Cell, goal: Cell, snake: set<Cell>)
    requires Searching(s, enq, done, start, goal, snake)
    requires s.queue == {}
    ensures !Reachable(start, goal, snake)
  {
    if Reachable(start, goal, snake) {
      var q :| Leads(start, q, goal, snake);
      assert enq <= done;
      ClosedSetHoldsWalk(start, q, snake, done);
    }
  }
}

=== FILE: bfs.dfy ===
/**
 * `bfs`: breadth-first search with a FIFO queue, a visited set and a parent
 * map. Walls (obstacles, and for the player the snake's tail) and off-board
 * cells are never entered. A cell is marked visited when first seen, whether
 * or not it can be entered, and the goal is tested when a cell is enqueued,
 * so a start equal to the goal is never found.
 */
module BreadthFirst {

  import opened Optional
  import opened Grid
  import opened Paths
  import opened ParentChain

  /** No walk through open cells reaches a discovered cell in fewer steps than its recorded distance. */
  ghost predicate Shortest(parents: map<Cell, Link>, dist: map<Cell, nat>, start: Cell, walls: set<Cell>) {
    forall q {:trigger Avoids(start, q, walls)} | Avoids(start, q, walls) && Apply(start, q) in parents ::
      Apply(start, q) in dist && dist[Apply(start, q)] <= |q|
  }

  /** Every cell some walk through open cells reaches within `level` steps has been discovered. */
  ghost predicate Complete(parents: map<Cell, Link>, start: Cell, walls: set<Cell>, level: nat) {
    forall q {:trigger Avoids(start, q, walls)} | Avoids(start, q, walls) && |q| <= level :: Apply(start, q) in parents
  }

  /** Every open neighbour of a fully expanded cell has been discovered. */
  ghost predicate ClosedUnder(done: set<Cell>, parents: map<Cell, Link>, walls: set<Cell>) {
    forall u, d | u in done && Open(Add(u, d), walls) :: Add(u, d) in parents
  }

  /** The discovered cells form a parent tree rooted at start, ranked by distance, entering only open cells. */
  ghost predicate Tree(parents: map<Cell, Link>, dist: map<Cell, nat>, start: Cell, walls: set<Cell>) {
    && Rooted(parents, start, dist)
    && parents.Keys == dist.Keys
    && dist[start] == 0
    && (forall n | n in parents && n != start :: Open(n, walls))
  }

  /** What the visited set records: the start, every discovered cell, and otherwise only cells that cannot be entered. */
  ghost predicate Marked(visited: set<Cell>, parents: map<Cell, Link>, start: Cell, goal: Cell, walls: set<Cell>) {
    && start in visited
    && parents.Keys <= visited
    && (forall v | v in visited :: v in parents || !Open(v, walls))
    && (goal in parents ==> goal == start)
  }

  /** The queue holds distinct cells whose distances run level .. level + 1 in order. */
  ghost predicate Layered(queue: seq<Cell>, dist: map<Cell, nat>, level: nat) {
    && (forall j | 0 <= j < |queue| :: queue[j] in dist && level <= dist[queue[j]] <= level + 1)
    && (forall j, k | 0 <= j <= k < |queue| :: dist[queue[j]] <= dist[queue[k]])
    && (forall j, k | 0 <= j < k < |queue| :: queue[j] != queue[k])
  }

  /** The queue, visited set and parent map of a search in progress. */
  datatype Frontier = Frontier(queue: seq<Cell>, visited: set<Cell>, parents: map<Cell, Link>)

  /** The bookkeeping side of a search in progress: the tree, the marks and the layered queue. */
  ghost predicate Shape(f: Frontier, dist: map<Cell, nat>, done: set<Cell>, level: nat,
                        start: Cell, goal: Cell, walls: set<Cell>) {
    && Tree(f.parents, dist, start, walls)
    && Marked(f.visited, f.parents, start, goal, walls)
    && Layered(f.queue, dist, level)
    && (forall c | c in f.queue :: c !in done)
    && (forall u | u in done :: u in dist && dist[u] <= level)
  }

  /** What the search knows about walks: expanded cells are closed, distances are shortest, the layer is complete. */
  ghost predicate Knowledge(parents: map<Cell, Link>, dist: map<Cell, nat>, done: set<Cell>, level: nat,
                            start: Cell, walls: set<Cell>) {
    && ClosedUnder(done, parents, walls)
    && Shortest(parents, dist, start, walls)
    && Complete(parents, start, walls, level)
  }

  /** What holds at the top of the `while queue` loop; `done` holds the cells popped and expanded. */
  ghost predicate Searching(f: Frontier, dist: map<Cell, nat>, done: set<Cell>, level: nat,
                            start: Cell, goal: Cell, walls: set<Cell>) {
    && Shape(f, dist, done, level, start, goal, walls)
    && f.parents.Keys == done + Cells(f.queue)
    && Knowledge(f.parents, dist, done, level, start, walls)
  }

  /** What holds while the neighbours of the popped cell cur are being examined. */
  ghost predicate Expanding(cur: Cell, f: Frontier, dist: map<Cell, nat>, done: set<Cell>, level: nat,
                            start: Cell, goal: Cell, walls: set<Cell>) {
    && Shape(f, dist, done, level, start, goal, walls)
    && cur in f.parents && cur !in done && cur !in f.queue && dist[cur] == level
    && f.parents.Keys == done + Cells(f.queue) + {cur}
    && Knowledge(f.parents, dist, done, level, start, walls)
  }

  /**
   * A returned path leads from start to the goal entering only open cells,
   * and no such walk is shorter. None comes back exactly when the goal is the
   * start or no such walk exists.
   */
  method Bfs(start: Cell, goal: Cell, walls: set<Cell>) returns (r: Option<seq<Direction>>)
    ensures r.Some? ==> Leads(start, r.value, goal, walls) && |r.value| >= 1
    ensures r.Some? ==> forall q | Leads(start, q, goal, walls) :: |r.value| <= |q|
    ensures r.None? <==> start == goal || !Reachable(start, goal, walls)
  {
    var f := Frontier([start], {start}, map[start := Root]);
    ghost var dist: map<Cell, nat> := map[start := 0];
    ghost var done: set<Cell> := {};
    ghost var level: nat := 0;
    Begin(start, goal, walls);
    while |f.queue| > 0
      invariant Searching(f, dist, done, level, start, goal, walls)
      decreases |Board() - f.visited| + |f.queue|
    {
      ghost var budget := |Board() - f.visited| + |f.queue| - 1;
      var cur;
      cur, f, level := Pop(f, dist, done, level, start, goal, walls);
      var i := 0;
      while i < 4
        invariant i <= 4
        invariant Expanding(cur, f, dist, done, level, start, goal, walls)
        invariant Covered(cur, Directions[..i], f.parents.Keys, walls)
        invariant |Board() - f.visited| + |f.queue| <= budget
      {
        var found;
        found, f, dist := Visit(cur, Directions[i], Directions[..i], f, dist, done, level, start, goal, walls);
        if found.Some? {
          return found;
        }
        PrefixStep(Directions, i);
        i := i + 1;
      }
      PrefixWhole(Directions);
      Expanded(cur, f, dist, done, level, start, goal, walls);
      done := done + {cur};
    }
    Exhausted(f, dist, done, level, start, goal, walls);
    return None;
  }

  /** An emptied queue: every expanded cell's open neighbours were discovered, and the goal never was. */
  lemma Exhausted(f: Frontier, dist: map<Cell, nat>, done: set<Cell>, level: nat,
                  start: Cell, goal: Cell, walls: set<Cell>)
    requires Searching(f, dist, done, level, start, goal, walls)
    requires |f.queue| == 0
    ensures start == goal || !Reachable(start, goal, walls)
  {
    if start != goal && Reachable(start, goal, walls) {
      assert Cells(f.queue) == {};
      var q :| Leads(start, q, goal, walls);
      ClosedSetHoldsWalk(start, q, walls, done);
    }
  }

  /** The state right after `queue = [start]`, `visited = {start}`, `parents = {start: END}`. */
  lemma Begin(start: Cell, goal: Cell, walls: set<Cell>)
    ensures Searching(Frontier([start], {start}, map[start := Root]), map[start := 0], {}, 0, start, goal, walls)
  {
    var f := Frontier([start], {start}, map[start := Root]);
    assert Cells(f.queue) == {start};
    forall q | Avoids(start, q, walls) && |q| <= 0
      ensures Apply(start, q) in f.parents
    {
      assert q == [];
    }
  }

  /** `queue.popleft()`; the layer moves on when the popped cell is one step further out. */
  method Pop(f: Frontier, ghost dist: map<Cell, nat>, ghost done: set<Cell>, ghost level: nat,
             ghost start: Cell, ghost goal: Cell, ghost walls: set<Cell>)
    returns (cur: Cell, f': Frontier, ghost level': nat)
    requires |f.queue| > 0
    requires Searching(f, dist, done, level, start, goal, walls)
    ensures cur == f.queue[0] && f' == f.(queue := f.queue[1..])
    ensures Expanding(cur, f', dist, done, level', start, goal, walls)
    ensures f'.visited == f.visited && |f'.queue| == |f.queue| - 1
  {
    cur := f.queue[0];
    f' := f.(queue := f.queue[1..]);
    if dist[cur] == level + 1 {
      NextLayer(f, dist, done, level, start, goal, walls);
      level' := level + 1;
    } else {
      SameLayer(f, dist, done, level, start, goal, walls);
      level' := level;
    }
  }

  /** Removing the front of the queue leaves the rest of the bookkeeping as it was. */
  lemma Dequeued(f: Frontier, dist: map<Cell, nat>, done: set<Cell>, level: nat,
                 start: Cell, goal: Cell, walls: set<Cell>)
    requires |f.queue| > 0
    requires Searching(f, dist, done, level, start, goal, walls)
    ensures f.queue == [f.queue[0]] + f.queue[1..]
    ensures Cells(f.queue) == Cells(f.queue[1..]) + {f.queue[0]}
    ensures f.queue[0] !in f.queue[1..]
  {
    assert f.queue == [f.queue[0]] + f.queue[1..];
  }

  /** A popped cell at the current distance is expanded within the same layer. */
  lemma SameLayer(f: Frontier, dist: map<Cell, nat>, done: set<Cell>, level: nat,
                  start: Cell, goal: Cell, walls: set<Cell>)
    requires |f.queue| > 0
    requires Searching(f, dist, done, level, start, goal, walls)
    requires dist[f.queue[0]] != level + 1
    ensures Expanding(f.queue[0], f.(queue := f.queue[1..]), dist, done, level, start, goal, walls)
  {
    Dequeued(f, dist, done, level, start, goal, walls);
  }

  /**
   * A popped cell one step further out means the previous layer is fully
   * expanded, so every cell within the new distance has been discovered.
   */
  lemma NextLayer(f: Frontier, dist: map<Cell, nat>, done: set<Cell>, level: nat,
                  start: Cell, goal: Cell, walls: set<Cell>)
    requires |f.queue| > 0
    requires Searching(f, dist, done, level, start, goal, walls)
    requires dist[f.queue[0]] == level + 1
    ensures Expanding(f.queue[0], f.(queue := f.queue[1..]), dist, done, level + 1, start, goal, walls)
  {
    Dequeued(f, dist, done, level, start, goal, walls);
    LayerExpanded(f, dist, done, level, start, goal, walls);
    LevelUp(start, walls, f.parents, dist, done, level);
  }

  /** When the queue front is one step further out, every discovered cell within `level` steps is expanded. */
  lemma LayerExpanded(f: Frontier, dist: map<Cell, nat>, done: set<Cell>, level: nat,
                      start: Cell, goal: Cell, walls: set<Cell>)
    requires |f.queue| > 0
    requires Searching(f, dist, done, level, start, goal, walls)
    requires dist[f.queue[0]] == level + 1
    ensures forall p | p in f.parents && p in dist && dist[p] <= level :: p in done
  {
  }

  /**
   * One pass of `for d in Direction`: mark the neighbour visited, and if it
   * can be entered record its parent and enqueue it; finding the goal there
   * ends the search with the rebuilt path.
   */
  method Visit(cur: Cell, d: Direction, ghost covered: seq<Direction>, f: Frontier, ghost dist: map<Cell, nat>, ghost done: set<Cell>, ghost level: nat,
               start: Cell, goal: Cell, walls: set<Cell>)
    returns (found: Option<seq<Direction>>, f': Frontier, ghost dist': map<Cell, nat>)
    requires Expanding(cur, f, dist, done, level, start, goal, walls)
    requires Covered(cur, covered, f.parents.Keys, walls)
    ensures found.Some? ==> Leads(start, found.value, goal, walls) && |found.value| >= 1
    ensures found.Some? ==> forall q | Leads(start, q, goal, walls) :: |found.value| <= |q|
    ensures found.Some? ==> start != goal
    ensures found.None? ==> Expanding(cur, f', dist', done, level, start, goal, walls)
    ensures found.None? ==> Covered(cur, covered + [d], f'.parents.Keys, walls)
    ensures found.Some? ==> Add(cur, d) == goal && goal !in f.visited && Open(goal, walls)
    ensures found.None? ==>
              var n := Add(cur, d);
              && (n in f.visited ==> f' == f)
              && (n !in f.visited && !Open(n, walls) ==> f' == f.(visited := f.visited + {n}))
              && (n !in f.visited && Open(n, walls) ==>
                    f' == Frontier(f.queue + [n], f.visited + {n}, f.parents[n := From(cur)])
                    && dist' == dist[n := level + 1])
    ensures |Board() - f'.visited| + |f'.queue| <= |Board() - f.visited| + |f.queue|
  {
    found, f', dist' := None, f, dist;
    var n := Add(cur, d);
    if n !in f.visited {
      MarkCell(f.visited, n);
      BoardIsGrid();
      if n !in walls && !OutOfBounds(n, Width, Height) {
        f' := Frontier(f.queue + [n], f.visited + {n}, f.parents[n := From(cur)]);
        dist' := dist[n := level + 1];
        if n == goal {
          FoundGoal(cur, d, f, dist, done, level, start, goal, walls);
          var path := Reconstruct(f'.parents, start, goal, dist', walls);
          found := Some(path);
        } else {
          Enqueued(cur, d, covered, f, dist, done, level, start, goal, walls);
        }
      } else {
        f' := f.(visited := f.visited + {n});
        Walled(cur, d, covered, f, dist, done, level, start, goal, walls);
      }
    } else {
      assert n in f.parents || !Open(n, walls);
    }
  }

  /** The goal is discovered as a neighbour of cur: the rebuilt path is as short as any walk to it. */
  lemma FoundGoal(cur: Cell, d: Direction, f: Frontier, dist: map<Cell, nat>, done: set<Cell>, level: nat,
                  start: Cell, goal: Cell, walls: set<Cell>)
    requires Expanding(cur, f, dist, done, level, start, goal, walls)
    requires Add(cur, d) == goal && goal !in f.visited && Open(goal, walls)
    ensures start != goal
    ensures Rooted(f.parents[goal := From(cur)], start, dist[goal := level + 1])
    ensures ParentsOpen(f.parents[goal := From(cur)], start, walls)
    ensures forall q | Leads(start, q, goal, walls) :: level + 1 <= |q|
  {
    var n := goal;
    StepRoundTrip(cur, d);
    TreeGrows(f.parents, dist, start, walls, cur, n, level);
  }

  /** An open, unseen neighbour other than the goal is recorded and enqueued one layer further out. */
  lemma Enqueued(cur: Cell, d: Direction, covered: seq<Direction>, f: Frontier, dist: map<Cell, nat>, done: set<Cell>,
                 level: nat, start: Cell, goal: Cell, walls: set<Cell>)
    requires Expanding(cur, f, dist, done, level, start, goal, walls)
    requires Covered(cur, covered, f.parents.Keys, walls)
    requires Add(cur, d) != goal && Add(cur, d) !in f.visited && Open(Add(cur, d), walls)
    ensures Expanding(cur, Frontier(f.queue + [Add(cur, d)], f.visited + {Add(cur, d)}, f.parents[Add(cur, d) := From(cur)]),
                      dist[Add(cur, d) := level + 1], done, level, start, goal, walls)
    ensures Covered(cur, covered + [d], f.parents[Add(cur, d) := From(cur)].Keys, walls)
  {
    var n := Add(cur, d);
    StepRoundTrip(cur, d);
    ShapeGrows(cur, f, dist, done, level, start, goal, walls, n);
    KnowledgeGrows(f.parents, dist, done, level, start, walls, f.visited, n, cur);
    assert Cells(f.queue + [n]) == Cells(f.queue) + {n};
  }

  lemma ShapeGrows(cur: Cell, f: Frontier, dist: map<Cell, nat>, done: set<Cell>, level: nat,
                   start: Cell, goal: Cell, walls: set<Cell>, n: Cell)
    requires Shape(f, dist, done, level, start, goal, walls)
    requires cur in f.parents && dist[cur] == level
    requires n !in f.visited && n !in f.queue && n !in done && n != goal && Open(n, walls)
    requires FromDelta(Sub(n, cur).0, Sub(n, cur).1).Some?
    ensures Shape(Frontier(f.queue + [n], f.visited + {n}, f.parents[n := From(cur)]), dist[n := level + 1],
                  done, level, start, goal, walls)
  {
    TreeGrows(f.parents, dist, start, walls, cur, n, level);
    MarkedGrows(f.visited, f.parents, start, goal, walls, n, From(cur));
    LayeredGrows(f.queue, dist, level, n);
  }

  lemma KnowledgeGrows(parents: map<Cell, Link>, dist: map<Cell, nat>, done: set<Cell>, level: nat,
                       start: Cell, walls: set<Cell>, visited: set<Cell>, n: Cell, cur: Cell)
    requires Knowledge(parents, dist, done, level, start, walls)
    requires parents.Keys <= visited && n !in visited
    ensures Knowledge(parents[n := From(cur)], dist[n := level + 1], done, level, start, walls)
  {
    Discover(start, walls, parents, dist, level, visited, n, cur);
    CompleteGrows(start, walls, parents, parents[n := From(cur)], level);
  }

  /** A neighbour that cannot be entered is only marked visited. */
  lemma Walled(cur: Cell, d: Direction, covered: seq<Direction>, f: Frontier, dist: map<Cell, nat>, done: set<Cell>,
               level: nat, start: Cell, goal: Cell, walls: set<Cell>)
    requires Expanding(cur, f, dist, done, level, start, goal, walls)
    requires Covered(cur, covered, f.parents.Keys, walls)
    requires !Open(Add(cur, d), walls)
    ensures Expanding(cur, f.(visited := f.visited + {Add(cur, d)}), dist, done, level, start, goal, walls)
    ensures Covered(cur, covered + [d], f.parents.Keys, walls)
  {
  }

  /** Hanging a new open cell one step below cur keeps the tree rooted and ranked by distance. */
  lemma TreeGrows(parents: map<Cell, Link>, dist: map<Cell, nat>, start: Cell, walls: set<Cell>,
                  cur: Cell, n: Cell, level: nat)
    requires Tree(parents, dist, start, walls)
    requires cur in parents && dist[cur] == level && n !in parents && Open(n, walls)
    requires FromDelta(Sub(n, cur).0, Sub(n, cur).1).Some?
    ensures Tree(parents[n := From(cur)], dist[n := level + 1], start, walls)
    ensures ParentsOpen(parents[n := From(cur)], start, walls)
  {
  }

  lemma MarkedGrows(visited: set<Cell>, parents: map<Cell, Link>, start: Cell, goal: Cell, walls: set<Cell>,
                    n: Cell, link: Link)
    requires Marked(visited, parents, start, goal, walls)
    requires n != goal
    ensures Marked(visited + {n}, parents[n := link], start, goal, walls)
  {
  }

  lemma LayeredGrows(queue: seq<Cell>, dist: map<Cell, nat>, level: nat, n: Cell)
    requires Layered(queue, dist, level)
    requires n !in queue
    ensures Layered(queue + [n], dist[n := level + 1], level)
  {
  }

  lemma CompleteGrows(start: Cell, walls: set<Cell>, p1: map<Cell, Link>, p2: map<Cell, Link>, level: nat)
    requires Complete(p1, start, walls, level)
    requires p1.Keys <= p2.Keys
    ensures Complete(p2, start, walls, level)
  {
  }

  /** Once all four neighbours of cur have been examined, cur joins the expanded cells. */
  lemma Expanded(cur: Cell, f: Frontier, dist: map<Cell, nat>, done: set<Cell>, level: nat,
                 start: Cell, goal: Cell, walls: set<Cell>)
    requires Expanding(cur, f, dist, done, level, start, goal, walls)
    requires Covered(cur, Directions, f.parents.Keys, walls)
    ensures Searching(f, dist, done + {cur}, level, start, goal, walls)
  {
    CoveredAll(cur, f.parents.Keys, walls);
  }

  /** A cell first seen while expanding a cell at distance `level` lies at distance level + 1. */
  lemma Discover(start: Cell, walls: set<Cell>, parents: map<Cell, Link>, dist: map<Cell, nat>,
                 level: nat, visited: set<Cell>, n: Cell, cur: Cell)
    requires Shortest(parents, dist, start, walls)
    requires Complete(parents, start, walls, level)
    requires parents.Keys <= visited && n !in visited
    ensures Shortest(parents[n := From(cur)], dist[n := level + 1], start, walls)
  {
    var p' := parents[n := From(cur)];
    var d' := dist[n := level + 1];
    forall q | Avoids(start, q, walls) && Apply(start, q) in p'
      ensures Apply(start, q) in d' && d'[Apply(start, q)] <= |q|
    {
      if Apply(start, q) == n {
        assert |q| > level;
      }
    }
  }

  /**
   * Moving on to the next layer: when every discovered cell at distance at
   * most `level` has been fully expanded, every cell within level + 1 steps
   * has been discovered.
   */
  lemma LevelUp(start: Cell, walls: set<Cell>, parents: map<Cell, Link>, dist: map<Cell, nat>,
                done: set<Cell>, level: nat)
    requires Shortest(parents, dist, start, walls)
    requires Complete(parents, start, walls, level)
    requires ClosedUnder(done, parents, walls)
    requires forall p | p in parents && p in dist && dist[p] <= level :: p in done
    ensures Complete(parents, start, walls, level + 1)
  {
    forall q | Avoids(start, q, walls) && |q| <= level + 1
      ensures Apply(start, q) in parents
    {
      if |q| == level + 1 {
        var k := |q| - 1;
        AvoidsPrefix(start, q, k, walls);
        var p := Apply(start, q[..k]);
        assert p in parents;
        assert p in done;
        ApplyPrefix(start, q, k);
        assert q[..k + 1] == q;
        assert Open(Apply(start, q[..k + 1]), walls);
      }
    }
  }
}

=== FILE: dfs.dfy ===
/**
 * `dfs`: recursive depth-first search with one visited set shared by all
 * branches. Obstacles (and, for the player, the snake's tail) are walls.
 * The goal test comes before the bounds and wall tests, so the goal itself
 * may be any cell; every cell stood on before it is open.
 */
module DepthFirst {

  import opened Optional
  import opened Grid
  import opened Paths

  /** A cell a failed search is done with: not the goal, and marked or refused. */
  ghost predicate Settled(n: Cell, goal: Cell, walls: set<Cell>, visited: set<Cell>) {
    n != goal && (n in visited || !Open(n, walls))
  }

  /** Every cell in `added` is open, is not the goal, and has all four neighbours settled. */
  ghost predicate DeadEnds(added: set<Cell>, goal: Cell, walls: set<Cell>, visited: set<Cell>) {
    forall u | u in added ::
      && Open(u, walls) && u != goal
      && forall d :: Settled(Add(u, d), goal, walls, visited)
  }

  /**
   * `dfs_inner` from cur with the visited set as it stands: returns the
   * directions from cur to the goal, or None, together with the visited set
   * afterwards. On failure every cell it marked is a dead end.
   */
  function Explore(cur: Cell, goal: Cell, walls: set<Cell>, visited: set<Cell>): (r: (Option<seq<Direction>>, set<Cell>))
    ensures visited <= r.1
    ensures r.0.Some? ==> LeadsLoosely(cur, r.0.value, goal, walls)
    ensures r.0.None? ==> Settled(cur, goal, walls, r.1) && DeadEnds(r.1 - visited, goal, walls, r.1)
    decreases |Board() - visited|, 0, 0
  {
    if cur == goal then (Some([]), visited)
    else if OutOfBounds(cur, Width, Height) then (None, visited)
    else if cur in walls then (None, visited)
    else if cur in visited then (None, visited)
    else
      BoardIsGrid();
      ShrinkByOne(Board() - visited, cur);
      assert Board() - (visited + {cur}) == (Board() - visited) - {cur};
      var r := ExploreFrom(cur, 0, goal, walls, visited + {cur});
      if r.0.None? then
        AllSettled(cur, goal, walls, r.1);
        assert r.1 - visited == (r.1 - (visited + {cur})) + {cur};
        r
      else r
  }

  /**
   * The `for d in Direction` loop of `dfs_inner` from the i-th direction on:
   * the first child search that succeeds gives the answer.
   */
  function ExploreFrom(cur: Cell, i: nat, goal: Cell, walls: set<Cell>, visited: set<Cell>): (r: (Option<seq<Direction>>, set<Cell>))
    requires i <= 4
    requires cur in visited && Open(cur, walls) && cur != goal
    ensures visited <= r.1
    ensures r.0.Some? ==> LeadsLoosely(cur, r.0.value, goal, walls)
    ensures r.0.None? ==>
              && (forall j | i <= j < 4 :: Settled(Add(cur, Directions[j]), goal, walls, r.1))
              && DeadEnds(r.1 - visited, goal, walls, r.1)
    decreases |Board() - visited|, 1, 4 - i
  {
    if i == 4 then (None, visited)
    else
      var d := Directions[i];
      var child := Explore(Add(cur, d), goal, walls, visited);
      if child.0.Some? then
        ApplyCons(cur, d, child.0.value);
        OpenBeforeCons(cur, d, child.0.value, walls);
        (Some([d] + child.0.value), child.1)
      else
        SubsetCard(Board() - child.1, Board() - visited);
        var rest := ExploreFrom(cur, i + 1, goal, walls, child.1);
        if rest.0.None? then
          DeadEndsGrow(child.1 - visited, goal, walls, child.1, rest.1);
          assert rest.1 - visited == (child.1 - visited) + (rest.1 - child.1);
          rest
        else rest
  }

  lemma AllSettled(cur: Cell, goal: Cell, walls: set<Cell>, visited: set<Cell>)
    requires forall j | 0 <= j < 4 :: Settled(Add(cur, Directions[j]), goal, walls, visited)
    ensures forall d :: Settled(Add(cur, d), goal, walls, visited)
  {
    forall d
      ensures Settled(Add(cur, d), goal, walls, visited)
    {
      match d
      case Up => assert d == Directions[0];
      case Down => assert d == Directions[1];
      case Left => assert d == Directions[2];
      case Right => assert d == Directions[3];
    }
  }

  lemma DeadEndsGrow(added: set<Cell>, goal: Cell, walls: set<Cell>, v1: set<Cell>, v2: set<Cell>)
    requires v1 <= v2
    requires DeadEnds(added, goal, walls, v1)
    ensures DeadEnds(added, goal, walls, v2)
  {
  }

  /** `dfs`: the search from start with nothing visited yet. */
  function Dfs(start: Cell, goal: Cell, walls: set<Cell>): (r: Option<seq<Direction>>)
    ensures start == goal ==> r == Some([])
    ensures start != goal && !Open(start, walls) ==> r == None
    ensures r.Some? ==> LeadsLoosely(start, r.value, goal, walls)
    ensures r.None? ==> !LooselyReachable(start, goal, walls)
  {
    var res := Explore(start, goal, walls, {});
    if res.0.None? then
      assert res.1 - {} == res.1;
      NothingLeadsOut(start, goal, walls, res.1);
      res.0
    else res.0
  }

  /**
   * Completeness of the shared visited set: once a search from start has
   * failed, no walk standing on open cells leads from start to the goal.
   */
  lemma NothingLeadsOut(start: Cell, goal: Cell, walls: set<Cell>, visited: set<Cell>)
    requires Settled(start, goal, walls, visited)
    requires DeadEnds(visited, goal, walls, visited)
    ensures !LooselyReachable(start, goal, walls)
  {
    if p :| LeadsLoosely(start, p, goal, walls) {
      if start in visited {
        assert p[..|p|] == p;
        DeadEndWalk(start, p, goal, walls, visited, |p|);
      } else {
        assert |p| > 0;
        assert p[..0] == [];
        assert Open(Apply(start, p[..0]), walls);
      }
    }
  }

  lemma {:induction false} DeadEndWalk(start: Cell, p: seq<Direction>, goal: Cell, walls: set<Cell>, visited: set<Cell>, k: nat)
    requires DeadEnds(visited, goal, walls, visited) && start in visited
    requires OpenBefore(start, p, walls)
    requires k <= |p|
    ensures Apply(start, p[..k]) != goal
    ensures k < |p| ==> Apply(start, p[..k]) in visited
  {
    if k == 0 {
      assert p[..0] == [];
    } else {
      DeadEndWalk(start, p, goal, walls, visited, k - 1);
      ApplyPrefix(start, p, k - 1);
      assert Settled(Add(Apply(start, p[..k - 1]), p[k - 1]), goal, walls, visited);
    }
  }
}

=== FILE: game.dfy ===
/**
 * One frame of the game loop, without the drawing: steer (replanning when
 * the buffer ran dry or the snake was just reset), move, eat, then check
 * every obstacle. Random choices arrive as parameters: the heading each
 * possible reset picks, and the cell the food jumps to.
 */
module Game {

  import opened Optional
  import opened Grid
  import opened Paths
  import opened Snakes
  import opened Players

  /** The state between frames: the snake, the food cell, the obstacle cells in iteration order, and the player. */
  datatype World = World(snake: Snake, food: Cell, obstacles: seq<Cell>, player: Player)

  /** The headings drawn by a reset while replanning, while moving, and on an obstacle. */
  datatype Draws = Draws(replan: Direction, move: Direction, hit: Direction)

  /**
   * A well-formed world: a valid snake, food on the board and on no obstacle,
   * obstacles on distinct board cells. Food and obstacles are placed on
   * distinct cells because placement avoids every cell already taken.
   */
  ghost predicate Sound(w: World) {
    && Valid(w.snake)
    && InGrid(w.food) && w.food !in w.obstacles
    && (forall c | c in w.obstacles :: InGrid(c))
    && Distinct(w.obstacles)
  }

  /**
   * Room for the food, required on every frame: the body's cells plus one
   * (the cell a step may add) plus the obstacle cells, counted separately
   * even where they overlap, stay below the 400 board cells.
   */
  predicate Roomy(w: World) {
    |w.snake.body| + 1 + |Cells(w.obstacles)| < Width * Height
  }

  lemma UnionCard(a: set<Cell>, b: set<Cell>)
    ensures |a + b| <= |a| + |b|
  {
    assert a + b == a + (b - a);
    SubsetCard(b - a, b);
  }

  /**
   * What each planner promises of a plan it hands back from start to food:
   * depth-first, a walk standing only on open cells before the food;
   * breadth-first, a walk through open cells that no other such walk beats;
   * A*, a walk through board cells off the snake's tail.
   */
  ghost predicate Vouched(strategy: Strategy, start: Cell, plan: seq<Direction>, food: Cell,
                          obstacles: set<Cell>, tail: set<Cell>) {
    && (strategy == DepthFirstPlanner ==> LeadsLoosely(start, plan, food, obstacles + tail))
    && (strategy == BreadthFirstPlanner ==>
          && Leads(start, plan, food, obstacles + tail)
          && forall q | Leads(start, q, food, obstacles + tail) :: |plan| <= |q|)
    && (strategy == AStarPlanner ==> Leads(start, plan, food, tail))
  }

  /**
   * `if player.move(snake) or snake.hasReset: search_path(); player.move(snake)`.
   * The result is None when the first step sufficed, and otherwise how the
   * replanning ended. After a replan the second step takes the first
   * direction of whatever buffer is then in place; its flag is ignored. An
   * adopted plan is one the planner vouches for, from the head to the food.
   */
  method Steer(p: Player, s: Snake, food: Cell, obstacles: set<Cell>, h: Direction)
    returns (p': Player, s': Snake, replan: Option<Replan>)
    requires Valid(s)
    ensures Valid(s') && |s'.body| <= |s.body|
    ensures s'.body == s.body || s'.body == [Center]
    ensures p'.strategy == p.strategy
    ensures replan.Some? <==> |p.plan| == 0 || s.justReset
    ensures replan.None? ==> p'.plan == p.plan[1..] && s' == Turn(s, p.plan[0])
    ensures replan.Some? ==> (replan == Some(Manual) <==> p.strategy == Human)
    ensures replan.Some? && p.strategy == DepthFirstPlanner ==>
              (replan == Some(Abandoned) <==> Head(s) == food || !LooselyReachable(Head(s), food, obstacles + Tail(s)))
    ensures replan.Some? && p.strategy == BreadthFirstPlanner ==>
              (replan == Some(Abandoned) <==> Head(s) == food || !Reachable(Head(s), food, obstacles + Tail(s)))
    ensures replan.Some? && p.strategy == AStarPlanner ==>
              (replan == Some(Abandoned) <==> Head(s) == food || !Reachable(Head(s), food, Tail(s)))
    ensures var (q, t, _) := NextStep(p, s);
            && (replan == Some(Manual) ==> (p', s') == (NextStep(q, t).0, NextStep(q, t).1))
            && (replan == Some(Abandoned) ==> (p', s') == (NextStep(q, Reset(h)).0, NextStep(q, Reset(h)).1))
            && (replan == Some(Adopted) ==>
                  exists plan: seq<Direction> | |plan| >= 1 && Vouched(p.strategy, Head(s), plan, food, obstacles, Tail(s)) ::
                    p' == q.(plan := plan[1..]) && s' == Turn(t, plan[0]))
  {
    var (q, t, emptied) := NextStep(p, s);
    assert t.body == s.body && Tail(t) == Tail(s);
    p', s' := q, t;
    replan := None;
    if emptied || t.justReset {
      var outcome;
      p', s', outcome := SearchPath(q, t, food, obstacles, h);
      replan := Some(outcome);
      ghost var plan := p'.plan;
      var (q', t', _) := NextStep(p', s');
      p', s' := q', t';
      if outcome == Adopted {
        assert p' == q.(plan := plan[1..]) && s' == Turn(t, plan[0]);
      }
    }
  }

  /**
   * `snake.move(); snake.eat(food); for ob in obstacles: snake.hit_obstacle(ob)`.
   * The head steps to the cell ahead. A collision there resets the snake; a
   * free cell is entered, eating the food if it is there; an obstacle cell
   * (the obstacles being on distinct cells) costs one length and one point,
   * or resets a snake of length one.
   */
  method Advance(s: Snake, food: Cell, obstacles: seq<Cell>, draws: Draws) returns (s': Snake, food': Cell)
    requires Valid(s) && InGrid(food) && food !in obstacles
    requires forall c | c in obstacles :: InGrid(c)
    requires |s.body| + 1 + |Cells(obstacles)| < Width * Height
    ensures Valid(s') && InGrid(food') && food' !in obstacles
    ensures food' != food ==> food' !in s'.body || s'.body == [Center]
    ensures var n := Add(Head(s), s.heading);
            && (Collides(s, n) ==> s'.body == [Center])
            && (!Collides(s, n) && n !in obstacles ==>
                  && Head(s') == n
                  && (food' != food <==> n == food)
                  && s'.length == s.length + (if n == food then 1 else 0)
                  && s'.score == s.score + (if n == food then 1 else 0))
            && (!Collides(s, n) && n in obstacles && Distinct(obstacles) && s.length > 1 ==>
                  && Head(s') == n && food' == food
                  && s'.length == s.length - 1 && s'.score == s.score - 1)
            && (!Collides(s, n) && n in obstacles && Distinct(obstacles) && s.length == 1 ==>
                  s'.body == [Center] && s'.justReset)
            && (!Collides(s, n) && (n !in obstacles || (Distinct(obstacles) && s.length > 1)) ==>
                  s'.body == Move(s, draws.move).body && s'.heading == s.heading)
  {
    s' := Move(s, draws.move);
    ghost var moved := s';
    food' := food;
    if Head(s') == food {
      CellsCard(s'.body);
      UnionCard(Cells(s'.body), Cells(obstacles));
      GridSides();
      FreeCellExists(Cells(s'.body) + Cells(obstacles));
      var pick :| pick in Board() && pick !in Cells(s'.body) + Cells(obstacles);
      var (eaten, next) := Eat(s', food', pick);
      s', food' := eaten, next;
    }
    assert s'.body == moved.body;
    s' := HitAll(s', obstacles, draws.hit);
  }

  /**
   * One frame. The snake stays valid, the obstacles stay put, and the food
   * moves only when eaten, to a board cell off the obstacles and off the
   * body, unless an obstacle then sent the snake back to the centre. The
   * head ends one step from where it was or from the reset cell, or on the
   * reset cell itself. While a plan is followed the step is the planned one,
   * with the outcomes `Advance` describes. Otherwise the frame replans with
   * the outcome `Steer` describes, reported in replan.
   */
  method Tick(w: World, draws: Draws) returns (w': World, replan: Option<Replan>)
    requires Sound(w) && Roomy(w)
    ensures Sound(w')
    ensures w'.obstacles == w.obstacles
    ensures w'.player.strategy == w.player.strategy
    ensures w'.food != w.food ==> w'.food !in w'.snake.body || w'.snake.body == [Center]
    ensures Head(w'.snake) == Center ||
            exists d :: Head(w'.snake) == Add(Head(w.snake), d) || Head(w'.snake) == Add(Center, d)
    ensures replan.Some? <==> |w.player.plan| == 0 || w.snake.justReset
    ensures replan.None? ==>
              var n := Add(Head(w.snake), Turn(w.snake, w.player.plan[0]).heading);
              && w'.player.plan == w.player.plan[1..]
              && (Collides(w.snake, n) ==> Head(w'.snake) == Center)
              && (!Collides(w.snake, n) && n !in w.obstacles ==>
                    && Head(w'.snake) == n
                    && (w'.food != w.food <==> n == w.food)
                    && w'.snake.length == w.snake.length + (if n == w.food then 1 else 0)
                    && w'.snake.score == w.snake.score + (if n == w.food then 1 else 0))
              && (!Collides(w.snake, n) && n in w.obstacles && w.snake.length > 1 ==>
                    && Head(w'.snake) == n && w'.food == w.food
                    && w'.snake.length == w.snake.length - 1
                    && w'.snake.score == w.snake.score - 1)
              && (!Collides(w.snake, n) && n in w.obstacles && w.snake.length == 1 ==>
                    w'.snake.body == [Center] && w'.snake.justReset)
              && (!Collides(w.snake, n) && (n !in w.obstacles || w.snake.length > 1) ==>
                    w'.snake.body == Move(Turn(w.snake, w.player.plan[0]), draws.move).body)
    ensures replan.Some? ==> (replan == Some(Manual) <==> w.player.strategy == Human)
    ensures replan.Some? && w.player.strategy == DepthFirstPlanner ==>
              (replan == Some(Abandoned) <==>
                 Head(w.snake) == w.food || !LooselyReachable(Head(w.snake), w.food, Cells(w.obstacles) + Tail(w.snake)))
    ensures replan.Some? && w.player.strategy == BreadthFirstPlanner ==>
              (replan == Some(Abandoned) <==>
                 Head(w.snake) == w.food || !Reachable(Head(w.snake), w.food, Cells(w.obstacles) + Tail(w.snake)))
    ensures replan.Some? && w.player.strategy == AStarPlanner ==>
              (replan == Some(Abandoned) <==>
                 Head(w.snake) == w.food || !Reachable(Head(w.snake), w.food, Tail(w.snake)))
    ensures replan == Some(Adopted) ==>
              exists plan: seq<Direction> | |plan| >= 1 &&
                  Vouched(w.player.strategy, Head(w.snake), plan, w.food, Cells(w.obstacles), Tail(w.snake)) ::
                w'.player.plan == plan[1..]
    ensures replan == Some(Manual) || replan == Some(Abandoned) ==>
              w'.player.plan == w.player.plan[(if |w.player.plan| < 2 then |w.player.plan| else 2)..]
    ensures replan == Some(Abandoned) ==>
              Head(w'.snake) == Center || exists d :: Head(w'.snake) == Add(Center, d)
  {
    var p, steered;
    p, steered, replan := Steer(w.player, w.snake, w.food, Cells(w.obstacles), draws.replan);
    var s, food := Advance(steered, w.food, w.obstacles, draws);
    w' := World(s, food, w.obstacles, p);
    var n := Add(Head(steered), steered.heading);
    if !Collides(steered, n) && Head(s) != Center {
      if steered.body == w.snake.body {
        assert Head(s) == Add(Head(w.snake), steered.heading);
      } else {
        assert Head(s) == Add(Center, steered.heading);
      }
    }
  }
}

=== FILE: grid.dfy ===
/**
 * Grid primitives of the Snake world: the four headings, cells, the bounds
 * test, and the 20 x 20 board as a finite set of cells.
 */
module Grid {

  import opened Optional

  /** The window is 480 pixels square and one cell is 24 pixels wide. */
  const ScreenSide: nat := 480
  const CellSide: nat := 24

  /** Cells per row and per column: 480 // 24. */
  const Width: nat := ScreenSide / CellSide
  const Height: nat := ScreenSide / CellSide

  datatype Direction = Up | Down | Left | Right

  /** The enumeration order of `Direction`, which every planner expands in. */
  const Directions: seq<Direction> := [Up, Down, Left, Right]

  function Dx(d: Direction): int {
    match d
    case Up => 0
    case Down => 0
    case Left => -1
    case Right => 1
  }

  function Dy(d: Direction): int {
    match d
    case Up => -1
    case Down => 1
    case Left => 0
    case Right => 0
  }

  /**
   * The direction whose vector is (dx, dy): the `Direction((dx, dy))` lookup.
   * Any other vector has no direction (the source raises ValueError).
   */
  function FromDelta(dx: int, dy: int): (r: Option<Direction>)
    ensures forall d :: r == Some(d) <==> Dx(d) == dx && Dy(d) == dy
    ensures r.None? <==> !(dx == 0 && (dy == 1 || dy == -1)) && !(dy == 0 && (dx == 1 || dx == -1))
  {
    if dx == 0 && dy == -1 then Some(Up)
    else if dx == 0 && dy == 1 then Some(Down)
    else if dx == -1 && dy == 0 then Some(Left)
    else if dx == 1 && dy == 0 then Some(Right)
    else None
  }

  /** The opposite heading, found by looking up the negated vector. */
  function Reverse(d: Direction): (r: Direction)
    ensures Dx(r) == -Dx(d) && Dy(r) == -Dy(d)
  {
    FromDelta(-Dx(d), -Dy(d)).value
  }

  /** Reversal undoes itself and never yields the heading it started from. */
  lemma ReverseInvolution(d: Direction)
    ensures Reverse(Reverse(d)) == d
    ensures Reverse(d) != d
  {
    match d
    case Up =>
    case Down =>
    case Left =>
    case Right =>
  }

  /** Every heading is one of the four enumerated ones. */
  lemma DirectionsComplete(d: Direction)
    ensures d in Directions
  {
  }

  datatype Cell = Cell(x: int, y: int)

  /** `Position + Direction`: one step, with no wrap-around. */
  function Add(c: Cell, d: Direction): Cell {
    Cell(c.x + Dx(d), c.y + Dy(d))
  }

  /** `Position - Position`: the coordinate delta. */
  function Sub(a: Cell, b: Cell): (int, int) {
    (a.x - b.x, a.y - b.y)
  }

  /** `check_bounds`: true exactly when the cell lies OUTSIDE width x height. */
  function OutOfBounds(c: Cell, width: int, height: int): bool {
    c.x >= width || c.x < 0 || c.y >= height || c.y < 0
  }

  predicate InGrid(c: Cell) {
    !OutOfBounds(c, Width, Height)
  }

  /**
   * One step followed by the delta recovers the step: `Direction(child - parent)`
   * gives back the direction that led from parent to child.
   */
  lemma StepRoundTrip(c: Cell, d: Direction)
    ensures Sub(Add(c, d), c) == (Dx(d), Dy(d))
    ensures FromDelta(Sub(Add(c, d), c).0, Sub(Add(c, d), c).1) == Some(d)
  {
  }

  /** Conversely, a delta that names a direction is one step of that direction. */
  lemma DeltaRoundTrip(a: Cell, b: Cell)
    requires FromDelta(Sub(b, a).0, Sub(b, a).1).Some?
    ensures Add(a, FromDelta(Sub(b, a).0, Sub(b, a).1).value) == b
  {
  }

  /** The cells (0, y) .. (n - 1, y), built one at a time. */
  function RowCells(y: int, n: nat): (r: set<Cell>)
    ensures |r| == n
    ensures forall c :: c in r <==> c.y == y && 0 <= c.x < n
  {
    if n == 0 then {} else RowCells(y, n - 1) + {Cell(n - 1, y)}
  }

  /** The first m rows of a board w cells wide, built row by row. */
  function RowsOf(w: nat, m: nat): (r: set<Cell>)
    ensures |r| == m * w
    ensures forall c :: c in r <==> 0 <= c.y < m && 0 <= c.x < w
  {
    if m == 0 then {}
    else
      var prev := RowsOf(w, m - 1);
      var row := RowCells(m - 1, w);
      assert prev * row == {};
      prev + row
  }

  /** The cells of a w x h rectangle anchored at the origin. */
  function Rect(w: nat, h: nat): set<Cell> {
    set x, y | 0 <= x < w && 0 <= y < h :: Cell(x, y)
  }

  /** A w x h rectangle holds w * h cells. */
  lemma RectSize(w: nat, h: nat)
    ensures |Rect(w, h)| == w * h
  {
    var r := RowsOf(w, h);
    forall c ensures c in Rect(w, h) <==> c in r {
      if c in r {
        assert c == Cell(c.x, c.y);
      }
    }
    assert Rect(w, h) == r;
  }

  lemma GridSides()
    ensures Width == 20 && Height == 20
  {
  }

  /** Every cell of the board. */
  function Board(): set<Cell> {
    Rect(Width, Height)
  }

  /** The board holds exactly the cells `check_bounds` accepts, 400 of them. */
  lemma BoardIsGrid()
    ensures |Board()| == 400
    ensures forall c :: c in Board() <==> InGrid(c)
  {
    GridSides();
    RectSize(Width, Height);
    forall c | InGrid(c)
      ensures c in Board()
    {
      assert c == Cell(c.x, c.y);
    }
  }

  /** A set of fewer than 400 cells leaves a board cell free. */
  lemma FreeCellExists(avoid: set<Cell>)
    requires |avoid| < 400
    ensures exists c :: c in Board() && c !in avoid
  {
    BoardIsGrid();
    if Board() <= avoid {
      SubsetCard(Board(), avoid);
      assert false;
    }
  }

  lemma ShrinkByOne(s: set<Cell>, c: Cell)
    requires c in s
    ensures |s - {c}| == |s| - 1
  {
    assert s == (s - {c}) + {c};
  }

  /** Marking one more cell never adds board cells to the unmarked ones, and marking a board cell removes one. */
  lemma MarkCell(visited: set<Cell>, c: Cell)
    ensures |Board() - (visited + {c})| <= |Board() - visited|
    ensures c in Board() && c !in visited ==> |Board() - (visited + {c})| == |Board() - visited| - 1
  {
    if c in Board() && c !in visited {
      ShrinkByOne(Board() - visited, c);
      assert Board() - (visited + {c}) == (Board() - visited) - {c};
    } else {
      assert Board() - (visited + {c}) == Board() - visited;
    }
  }

  /** The cells of a sequence, as a set. */
  function Cells(s: seq<Cell>): set<Cell> {
    set c | c in s
  }

  /** A sequence has at least as many elements as distinct cells. */
  lemma {:induction false} CellsCard(s: seq<Cell>)
    ensures |Cells(s)| <= |s|
  {
    if |s| > 0 {
      CellsCard(s[1..]);
      assert Cells(s) == Cells(s[1..]) + {s[0]};
    }
  }

  lemma SubsetCard<T>(a: set<T>, b: set<T>)
    requires a <= b
    ensures |a| <= |b|
  {
    assert b == a + (b - a);
  }
}

=== FILE: optional.dfy ===
/** The Python `None` / value return of the planners, as a datatype. */
module Optional {

  datatype Option<T> = None | Some(value: T)

}

=== FILE: parents.dfy ===
/**
 * The parent map shared by breadth-first search and A*: each discovered cell
 * points back to the cell it was reached from, the start to a root sentinel.
 * A path is rebuilt by walking the parent links back from the goal.
 */
module ParentChain {

  import opened Grid
  import opened Paths

  /** A parent-map entry: the root sentinel of the start, or the cell a node was reached from. */
  datatype Link = Root | From(parent: Cell)

  /**
   * The parent links form a tree rooted at start: only start carries the root
   * sentinel, every other entry points one step back to an entry of strictly
   * smaller rank (a distance or a g score), so walking back always ends.
   */
  ghost predicate Rooted(parents: map<Cell, Link>, start: Cell, rank: map<Cell, nat>) {
    && start in parents && parents[start] == Root
    && (forall n | n in parents :: n in rank)
    && (forall n | n in parents && parents[n].Root? :: n == start)
    && (forall n | n in parents && parents[n].From? ::
          && parents[n].parent in parents
          && parents[n].parent in rank
          && rank[parents[n].parent] < rank[n]
          && FromDelta(Sub(n, parents[n].parent).0, Sub(n, parents[n].parent).1).Some?)
  }

  /** Every cell some entry points back to is the start or open. */
  ghost predicate ParentsOpen(parents: map<Cell, Link>, start: Cell, walls: set<Cell>) {
    forall n | n in parents && parents[n].From? ::
      parents[n].parent == start || Open(parents[n].parent, walls)
  }

  /**
   * The reconstruction loop: collect `Direction(cur - parents[cur])` while
   * walking back to the root. The source appends and reverses at the end;
   * prepending builds the same sequence. The result leads from start to
   * goal through open cells and is no longer than the rank difference.
   */
  method Reconstruct(parents: map<Cell, Link>, start: Cell, goal: Cell,
                     ghost rank: map<Cell, nat>, ghost walls: set<Cell>)
    returns (path: seq<Direction>)
    requires Rooted(parents, start, rank)
    requires ParentsOpen(parents, start, walls)
    requires goal in parents
    requires goal == start || Open(goal, walls)
    ensures Leads(start, path, goal, walls)
    ensures |path| + rank[start] <= rank[goal]
  {
    var cur := goal;
    path := [];
    while parents[cur].From?
      invariant cur in parents
      invariant cur == start || Open(cur, walls)
      invariant Leads(cur, path, goal, walls)
      invariant |path| + rank[cur] <= rank[goal]
      decreases rank[cur]
    {
      var prev := parents[cur].parent;
      var delta := Sub(cur, prev);
      var d := FromDelta(delta.0, delta.1).value;
      DeltaRoundTrip(prev, cur);
      AvoidsCons(prev, d, path, walls);
      ApplyCons(prev, d, path);
      path := [d] + path;
      cur := prev;
    }
  }
}

=== FILE: paths.dfy ===
/**
 * Walks on the board: a planned path is a sequence of directions applied
 * head-first from a start cell. The planners differ in which cells they
 * refuse to enter; `walls` is that set and the board edge is always a wall.
 */
module Paths {

  import opened Grid

  /** The cell reached by applying the directions of p in order from c. */
  function Apply(c: Cell, p: seq<Direction>): Cell
  {
    if |p| == 0 then c else Add(Apply(c, p[..|p| - 1]), p[|p| - 1])
  }

  /** A cell a planner may enter: on the board and not a wall. */
  predicate Open(c: Cell, walls: set<Cell>) {
    InGrid(c) && c !in walls
  }

  /** Every cell the walk enters, from the first step to the last, is open. */
  ghost predicate Avoids(start: Cell, p: seq<Direction>, walls: set<Cell>) {
    forall i | 1 <= i <= |p| :: Open(Apply(start, p[..i]), walls)
  }

  /** Every cell the walk stands on before its last step is open (the start included). */
  ghost predicate OpenBefore(start: Cell, p: seq<Direction>, walls: set<Cell>) {
    forall i | 0 <= i < |p| :: Open(Apply(start, p[..i]), walls)
  }

  /** p leads from start to goal entering only open cells. */
  ghost predicate Leads(start: Cell, p: seq<Direction>, goal: Cell, walls: set<Cell>) {
    Apply(start, p) == goal && Avoids(start, p, walls)
  }

  ghost predicate Reachable(start: Cell, goal: Cell, walls: set<Cell>) {
    exists p :: Leads(start, p, goal, walls)
  }

  /** p leads from start to goal standing only on open cells before arriving. */
  ghost predicate LeadsLoosely(start: Cell, p: seq<Direction>, goal: Cell, walls: set<Cell>) {
    Apply(start, p) == goal && OpenBefore(start, p, walls)
  }

  ghost predicate LooselyReachable(start: Cell, goal: Cell, walls: set<Cell>) {
    exists p :: LeadsLoosely(start, p, goal, walls)
  }

  /** Applying a path whose first step is d is applying the rest from c + d. */
  lemma {:induction false} ApplyCons(c: Cell, d: Direction, p: seq<Direction>)
    ensures Apply(c, [d] + p) == Apply(Add(c, d), p)
    decreases |p|
  {
    if |p| > 0 {
      var q := [d] + p;
      assert q[..|q| - 1] == [d] + p[..|p| - 1];
      ApplyCons(c, d, p[..|p| - 1]);
    }
  }

  /** Applying one more step at the end. */
  lemma ApplySnoc(c: Cell, p: seq<Direction>, d: Direction)
    ensures Apply(c, p + [d]) == Add(Apply(c, p), d)
  {
    assert (p + [d])[..|p|] == p;
  }

  lemma ApplyPrefix(c: Cell, p: seq<Direction>, i: nat)
    requires i < |p|
    ensures Apply(c, p[..i + 1]) == Add(Apply(c, p[..i]), p[i])
  {
    assert p[..i + 1][..i] == p[..i];
  }

  /** A walk from c starting with d avoids the walls iff c + d is open and the rest avoids them from there. */
  lemma AvoidsCons(c: Cell, d: Direction, p: seq<Direction>, walls: set<Cell>)
    ensures Avoids(c, [d] + p, walls) <==> Open(Add(c, d), walls) && Avoids(Add(c, d), p, walls)
  {
    var q := [d] + p;
    forall i | 1 <= i <= |q|
      ensures Apply(c, q[..i]) == Apply(Add(c, d), p[..i - 1])
    {
      assert q[..i] == [d] + p[..i - 1];
      ApplyCons(c, d, p[..i - 1]);
    }
    assert q[..1] == [d];
    assert Apply(c, [d]) == Add(c, d) by {
      assert [d][..0] == [];
    }
    if Open(Add(c, d), walls) && Avoids(Add(c, d), p, walls) {
      forall i | 1 <= i <= |q|
        ensures Open(Apply(c, q[..i]), walls)
      {
        if i > 1 {
          assert Open(Apply(Add(c, d), p[..i - 1]), walls);
        }
      }
    }
    if Avoids(c, q, walls) {
      forall j | 1 <= j <= |p|
        ensures Open(Apply(Add(c, d), p[..j]), walls)
      {
        assert Open(Apply(c, q[..j + 1]), walls);
      }
    }
  }

  /** A walk from c starting with d stands on open cells iff c does and the rest does from c + d. */
  lemma OpenBeforeCons(c: Cell, d: Direction, p: seq<Direction>, walls: set<Cell>)
    ensures OpenBefore(c, [d] + p, walls) <==> Open(c, walls) && OpenBefore(Add(c, d), p, walls)
  {
    var q := [d] + p;
    forall i | 1 <= i <= |q|
      ensures Apply(c, q[..i]) == Apply(Add(c, d), p[..i - 1])
    {
      assert q[..i] == [d] + p[..i - 1];
      ApplyCons(c, d, p[..i - 1]);
    }
    assert q[..0] == [];
    if Open(c, walls) && OpenBefore(Add(c, d), p, walls) {
      forall i | 0 <= i < |q|
        ensures Open(Apply(c, q[..i]), walls)
      {
        if i > 0 {
          assert Open(Apply(Add(c, d), p[..i - 1]), walls);
        }
      }
    }
    if OpenBefore(c, q, walls) {
      forall j | 0 <= j < |p|
        ensures Open(Apply(Add(c, d), p[..j]), walls)
      {
        assert Open(Apply(c, q[..j + 1]), walls);
      }
    }
  }

  /** Extending an avoiding walk by one step into an open cell keeps it avoiding. */
  lemma AvoidsSnoc(c: Cell, p: seq<Direction>, d: Direction, walls: set<Cell>)
    requires Avoids(c, p, walls)
    requires Open(Add(Apply(c, p), d), walls)
    ensures Avoids(c, p + [d], walls)
  {
    var q := p + [d];
    forall i | 1 <= i <= |q|
      ensures Open(Apply(c, q[..i]), walls)
    {
      if i <= |p| {
        assert q[..i] == p[..i];
      } else {
        assert q[..i] == q;
        ApplySnoc(c, p, d);
      }
    }
  }

  /** A prefix of an avoiding walk avoids the walls too. */
  lemma AvoidsPrefix(c: Cell, p: seq<Direction>, k: nat, walls: set<Cell>)
    requires k <= |p|
    requires Avoids(c, p, walls)
    ensures Avoids(c, p[..k], walls)
  {
    forall i | 1 <= i <= k
      ensures Open(Apply(c, p[..k][..i]), walls)
    {
      assert p[..k][..i] == p[..i];
    }
  }

  /**
   * A set that holds the start and every open neighbour of its members holds
   * the end of every avoiding walk from the start: nothing outside it is reachable.
   */
  lemma {:induction false} ClosedSetHoldsWalk(start: Cell, p: seq<Direction>, walls: set<Cell>, s: set<Cell>)
    requires start in s
    requires forall u, d | u in s && Open(Add(u, d), walls) :: Add(u, d) in s
    requires Avoids(start, p, walls)
    ensures Apply(start, p) in s
    decreases |p|
  {
    if |p| > 0 {
      var k := |p| - 1;
      AvoidsPrefix(start, p, k, walls);
      ClosedSetHoldsWalk(start, p[..k], walls, s);
      assert p[..|p|] == p;
      assert Open(Apply(start, p[..|p|]), walls);
    }
  }

  /** Every open neighbour of cur in one of the directions ds is in found. */
  ghost predicate Covered(cur: Cell, ds: seq<Direction>, found: set<Cell>, walls: set<Cell>) {
    forall d | d in ds && Open(Add(cur, d), walls) :: Add(cur, d) in found
  }

  /** Examining all four directions in enum order covers every neighbour. */
  lemma CoveredAll(cur: Cell, found: set<Cell>, walls: set<Cell>)
    requires Covered(cur, Directions, found, walls)
    ensures forall d | Open(Add(cur, d), walls) :: Add(cur, d) in found
  {
    forall d | Open(Add(cur, d), walls)
      ensures Add(cur, d) in found
    {
      DirectionsComplete(d);
    }
  }

  lemma PrefixStep<T>(s: seq<T>, i: nat)
    requires i < |s|
    ensures s[..i + 1] == s[..i] + [s[i]]
  {
  }

  lemma PrefixWhole<T>(s: seq<T>)
    ensures s[..|s|] == s
  {
  }
}

=== FILE: player.dfy ===
/**
 * The controllers. Every player keeps `chosen_path`, a buffer of directions
 * it feeds to the snake one per tick. A human fills the buffer from key
 * presses; the three planners replace it with a freshly searched path to the
 * food, and when the search comes back empty-handed they reset the snake.
 */
module Players {

  import opened Optional
  import opened Grid
  import opened Paths
  import opened Snakes
  import DepthFirst
  import BreadthFirst
  import AStar

  datatype Strategy = Human | DepthFirstPlanner | BreadthFirstPlanner | AStarPlanner

  /** A player: how it plans, and the directions still to follow. */
  datatype Player = Player(strategy: Strategy, plan: seq<Direction>)

  /**
   * `Player.move`: take the first buffered direction and turn the snake to
   * it. The flag is true when the buffer was empty and nothing happened.
   */
  function NextStep(p: Player, s: Snake): (r: (Player, Snake, bool))
    ensures r.2 <==> |p.plan| == 0
    ensures r.0.strategy == p.strategy
    ensures r.2 ==> r.0 == p && r.1 == s
    ensures !r.2 ==> [p.plan[0]] + r.0.plan == p.plan && r.1 == Turn(s, p.plan[0])
  {
    if |p.plan| == 0 then (p, s, true)
    else (p.(plan := p.plan[1..]), Turn(s, p.plan[0]), false)
  }

  /** `turn`: a human queues the pressed direction; a planner ignores key presses. */
  function Press(p: Player, d: Direction): (r: Player)
    ensures r.strategy == p.strategy
    ensures p.strategy == Human ==> r.plan == p.plan + [d] && r.plan[|r.plan| - 1] == d
    ensures p.strategy != Human ==> r == p
  {
    if p.strategy == Human then p.(plan := p.plan + [d]) else p
  }

  /** Key presses are followed first in, first out: pressing and stepping commute on a non-empty buffer. */
  lemma PressThenStep(p: Player, s: Snake, d: Direction)
    requires p.strategy == Human && |p.plan| > 0
    ensures NextStep(Press(p, d), s).0 == Press(NextStep(p, s).0, d)
    ensures NextStep(Press(p, d), s).1 == NextStep(p, s).1
  {
    assert (p.plan + [d])[1..] == p.plan[1..] + [d];
  }

  /** A press into an empty buffer is followed on the very next step. */
  lemma PressIntoEmpty(p: Player, s: Snake, d: Direction)
    requires p.strategy == Human && |p.plan| == 0
    ensures NextStep(Press(p, d), s) == (p, Turn(s, d), false)
  {
    assert (p.plan + [d])[1..] == [];
  }

  /** The cells `positions[1:]` of the body behind the head. */
  function Tail(s: Snake): set<Cell> {
    set i | 1 <= i < |s.body| :: s.body[i]
  }

  /** How a call of `search_path` ended. */
  datatype Replan = Adopted | Abandoned | Manual

  /**
   * `search_path`: a planner searches from the head to the food. A non-empty
   * plan replaces the buffer; no plan, or the empty plan, resets the snake and
   * leaves the buffer as it was. Depth- and breadth-first search treat the
   * tail as walls alongside the obstacles; A* is given the tail alone and
   * merely discourages obstacles. A human player does nothing here.
   */
  method SearchPath(p: Player, s: Snake, food: Cell, obstacles: set<Cell>, h: Direction)
    returns (p': Player, s': Snake, outcome: Replan)
    requires |s.body| >= 1
    ensures p'.strategy == p.strategy
    ensures outcome == Manual <==> p.strategy == Human
    ensures outcome == Manual ==> p' == p && s' == s
    ensures outcome == Adopted ==> s' == s && |p'.plan| >= 1
    ensures outcome == Abandoned ==> s' == Reset(h) && p' == p
    ensures outcome == Adopted && p.strategy == DepthFirstPlanner ==>
              LeadsLoosely(Head(s), p'.plan, food, obstacles + Tail(s))
    ensures p.strategy == DepthFirstPlanner ==>
              (outcome == Abandoned <==> Head(s) == food || !LooselyReachable(Head(s), food, obstacles + Tail(s)))
    ensures outcome == Adopted && p.strategy == BreadthFirstPlanner ==>
              && Leads(Head(s), p'.plan, food, obstacles + Tail(s))
              && forall q | Leads(Head(s), q, food, obstacles + Tail(s)) :: |p'.plan| <= |q|
    ensures p.strategy == BreadthFirstPlanner ==>
              (outcome == Abandoned <==> Head(s) == food || !Reachable(Head(s), food, obstacles + Tail(s)))
    ensures outcome == Adopted && p.strategy == AStarPlanner ==> Leads(Head(s), p'.plan, food, Tail(s))
    ensures p.strategy == AStarPlanner ==>
              (outcome == Abandoned <==> Head(s) == food || !Reachable(Head(s), food, Tail(s)))
  {
    var found: Option<seq<Direction>>;
    match p.strategy {
      case Human =>
        return p, s, Manual;
      case DepthFirstPlanner =>
        found := DepthFirst.Dfs(Head(s), food, obstacles + Tail(s));
      case BreadthFirstPlanner =>
        found := BreadthFirst.Bfs(Head(s), food, obstacles + Tail(s));
      case AStarPlanner =>
        found := AStar.AStarSearch(Head(s), food, obstacles, Tail(s));
    }
    if found.Some? && |found.value| > 0 {
      p', s', outcome := p.(plan := found.value), s, Adopted;
    } else {
      p', s', outcome := p, Reset(h), Abandoned;
    }
  }
}

=== FILE: snake.dfy ===
/**
 * The snake: its body (head first), the target length it grows towards, the
 * heading of the next move, the score and the flag that marks a fresh reset.
 */
module Snakes {

  import opened Grid

  /** Length a snake is (re)born with. */
  const InitLength: int := 4

  /**
   * The reset cell. The source halves the pixel size of a cell (24 // 2), not
   * the number of cells per side, so this is (12, 12) rather than (10, 10).
   */
  const Center: Cell := Cell(CellSide / 2, CellSide / 2)

  datatype Snake = Snake(body: seq<Cell>, length: int, heading: Direction, score: int, justReset: bool)

  predicate Distinct(b: seq<Cell>) {
    forall i, j | 0 <= i < j < |b| :: b[i] != b[j]
  }

  /**
   * What every reachable snake satisfies: a non-empty body of distinct board
   * cells, a positive target length, and a score that is always the target
   * length minus the initial length (meals add one to both, obstacle hits
   * take one from both, a reset restores 4 and 0).
   */
  ghost predicate Valid(s: Snake) {
    && |s.body| >= 1
    && Distinct(s.body)
    && (forall i | 0 <= i < |s.body| :: InGrid(s.body[i]))
    && s.length >= 1
    && s.length == s.score + InitLength
  }

  function Head(s: Snake): Cell
    requires |s.body| >= 1
  {
    s.body[0]
  }

  /** `reset`: a one-cell snake at the reset cell, heading h (drawn at random by the source). */
  function Reset(h: Direction): (r: Snake)
    ensures Valid(r)
    ensures r.justReset && r.score == 0 && |r.body| == 1 && Head(r) == Center
  {
    Snake([Center], InitLength, h, 0, true)
  }

  /**
   * `turn`: adopt heading d, unless the snake's target length exceeds one and
   * d points straight back. The guard reads the target length, not the body.
   */
  function Turn(s: Snake, d: Direction): (r: Snake)
    ensures r == s.(heading := r.heading)
    ensures r.heading != d <==> s.length > 1 && Reverse(d) == s.heading
    ensures r.heading == d || r.heading == s.heading
  {
    if s.length > 1 && Reverse(d) == s.heading then s else s.(heading := d)
  }

  /** With a target length above one, no turn makes the snake head back the way it came. */
  lemma TurnNeverReverses(s: Snake, d: Direction)
    requires s.length > 1
    ensures Turn(s, d).heading != Reverse(s.heading)
  {
    ReverseInvolution(d);
    ReverseInvolution(s.heading);
  }

  /** Turning twice the same way is turning once. */
  lemma TurnIdempotent(s: Snake, d: Direction)
    ensures Turn(Turn(s, d), d) == Turn(s, d)
  {
    ReverseInvolution(d);
  }

  /** The `while len(positions) > length: pop()` loop: drop tail cells down to n. */
  function Trim(b: seq<Cell>, n: int): (r: seq<Cell>)
    requires n >= 0
    ensures |r| == if |b| > n then n else |b|
    ensures r == b[..|r|]
    decreases |b|
  {
    if |b| > n then Trim(b[..|b| - 1], n) else b
  }

  /** `collide`: the cell is on the body (its last cell included) or off the board. */
  predicate Collides(s: Snake, c: Cell) {
    c in s.body || OutOfBounds(c, Width, Height)
  }

  /**
   * `move`: step the head one cell along the heading. A collision resets the
   * snake (heading h is the fresh random heading); otherwise the new head is
   * prepended and the body trimmed to the target length.
   */
  function Move(s: Snake, h: Direction): (r: Snake)
    requires |s.body| >= 1 && s.length >= 1
    ensures var next := Add(Head(s), s.heading);
            Collides(s, next) ==> r == Reset(h)
    ensures var next := Add(Head(s), s.heading);
            !Collides(s, next) ==>
              && |r.body| >= 1 && r.body[0] == next
              && |r.body| == (if |s.body| + 1 > s.length then s.length else |s.body| + 1)
              && r.body[1..] == s.body[..|r.body| - 1]
              && r.length == s.length && r.score == s.score && r.heading == s.heading
              && !r.justReset
    ensures Valid(s) ==> Valid(r) && |r.body| <= r.length
  {
    var next := Add(Head(s), s.heading);
    if Collides(s, next) then Reset(h)
    else
      var r := s.(body := Trim([next] + s.body, s.length), justReset := false);
      assert Valid(s) ==> Valid(r) by {
        if Valid(s) {
          MovedBodyValid(s, next, r.body);
        }
      }
      r
  }

  lemma MovedBodyValid(s: Snake, next: Cell, b: seq<Cell>)
    requires Valid(s)
    requires !Collides(s, next)
    requires b == Trim([next] + s.body, s.length)
    ensures Distinct(b) && |b| >= 1
    ensures forall i | 0 <= i < |b| :: InGrid(b[i])
  {
    var full := [next] + s.body;
    assert b == full[..|b|];
    forall i, j | 0 <= i < j < |b|
      ensures b[i] != b[j]
    {
      if i == 0 {
        assert b[j] == s.body[j - 1];
      } else {
        assert b[i] == s.body[i - 1] && b[j] == s.body[j - 1];
      }
    }
    forall i | 0 <= i < |b|
      ensures InGrid(b[i])
    {
      if i > 0 {
        assert b[i] == s.body[i - 1];
      }
    }
  }

  /**
   * Growth is lazy: while the body is shorter than the target length a move
   * keeps every old cell, so the body gains exactly one cell.
   */
  lemma MoveGrows(s: Snake, h: Direction)
    requires Valid(s) && |s.body| < s.length
    requires !Collides(s, Add(Head(s), s.heading))
    ensures Move(s, h).body == [Add(Head(s), s.heading)] + s.body
  {
    var r := Move(s, h);
    assert r.body[1..] == s.body;
  }

  /** At full length a move gives up exactly the last cell. */
  lemma MoveVacatesTail(s: Snake, h: Direction)
    requires Valid(s) && |s.body| == s.length
    requires !Collides(s, Add(Head(s), s.heading))
    ensures Move(s, h).body == [Add(Head(s), s.heading)] + s.body[..|s.body| - 1]
    ensures |Move(s, h).body| == |s.body|
  {
    var r := Move(s, h);
    assert r.body == [r.body[0]] + r.body[1..];
  }

  /**
   * The collision test counts the last body cell although a move at full
   * length vacates it: a four-cell snake curled in a 2 x 2 square cannot
   * chase its own tail and is reset instead.
   */
  lemma TailChaseResets(h: Direction)
    ensures var s := Snake([Cell(0, 0), Cell(1, 0), Cell(1, 1), Cell(0, 1)], 4, Down, 0, false);
            Valid(s) && Move(s, h) == Reset(h)
  {
    var s := Snake([Cell(0, 0), Cell(1, 0), Cell(1, 1), Cell(0, 1)], 4, Down, 0, false);
    assert Add(Head(s), Down) == s.body[3];
  }

  /**
   * `eat`: when the head is on the food, the target length and the score go
   * up by one and the food moves to pick, a cell off the body (the source
   * redraws a random cell until it is off the body). Otherwise nothing changes.
   */
  function Eat(s: Snake, food: Cell, pick: Cell): (r: (Snake, Cell))
    requires |s.body| >= 1
    requires Head(s) == food ==> pick !in s.body
    ensures Head(s) == food ==>
              && r.0 == s.(length := s.length + 1, score := s.score + 1)
              && r.1 == pick && r.1 !in r.0.body
    ensures Head(s) != food ==> r == (s, food)
    ensures Valid(s) ==> Valid(r.0)
  {
    if Head(s) == food then (s.(length := s.length + 1, score := s.score + 1), pick)
    else (s, food)
  }

  /**
   * `hit_obstacle`: when the head is on the obstacle, length and score drop by
   * one, and the snake resets (heading h) exactly when the length reaches zero.
   */
  function HitObstacle(s: Snake, obstacle: Cell, h: Direction): (r: Snake)
    requires |s.body| >= 1
    ensures Head(s) != obstacle ==> r == s
    ensures Head(s) == obstacle && s.length == 1 ==> r == Reset(h)
    ensures Head(s) == obstacle && s.length != 1 ==>
              r == s.(length := s.length - 1, score := s.score - 1)
    ensures |r.body| >= 1
    ensures Valid(s) ==> Valid(r)
  {
    if Head(s) == obstacle then
      var shrunk := s.(length := s.length - 1, score := s.score - 1);
      if shrunk.length == 0 then Reset(h) else shrunk
    else s
  }

  /**
   * The `for ob in obstacles: hit_obstacle(ob)` loop, in iteration order.
   * Obstacles sit on distinct cells, so the head meets at most one of them:
   * a snake longer than one loses exactly one length and one point, and a
   * snake of length one is reset (and may then meet an obstacle on the
   * reset cell later in the loop).
   */
  function HitAll(s: Snake, obstacles: seq<Cell>, h: Direction): (r: Snake)
    requires |s.body| >= 1
    ensures |r.body| >= 1
    ensures Head(s) !in obstacles ==> r == s
    ensures Distinct(obstacles) && Head(s) in obstacles && s.length > 1 ==>
              r == s.(length := s.length - 1, score := s.score - 1)
    ensures Distinct(obstacles) && Head(s) in obstacles && s.length == 1 ==>
              r.body == [Center] && r.justReset
    ensures r.body == s.body || r.body == [Center]
    ensures Valid(s) ==> Valid(r)
    decreases |obstacles|
  {
    if |obstacles| == 0 then s
    else HitAll(HitObstacle(s, obstacles[0], h), obstacles[1..], h)
  }

  /** A snake of length above one survives an obstacle hit with its body intact. */
  lemma HitKeepsBody(s: Snake, obstacle: Cell, h: Direction)
    requires Valid(s) && s.length > 1 && Head(s) == obstacle
    ensures HitObstacle(s, obstacle, h).body == s.body
    ensures HitObstacle(s, obstacle, h).length == s.length - 1
    ensures !HitObstacle(s, obstacle, h).justReset || s.justReset
  {
  }

  /**
   * Right after a reset the body is one cell, yet a turn straight back is
   * still refused because the guard reads the target length (4).
   */
  lemma ResetRefusesReversal(h: Direction)
    ensures |Reset(h).body| == 1
    ensures Turn(Reset(h), Reverse(h)).heading == h
  {
    ReverseInvolution(h);
  }

  /** A snake heading up ignores a turn down and keeps moving up. */
  lemma SelfReverseIgnored(h: Direction)
    ensures var s := Snake([Cell(10, 10), Cell(10, 11), Cell(10, 12), Cell(10, 13)], 4, Up, 0, false);
            Valid(s) && Head(Move(Turn(s, Down), h)) == Cell(10, 9)
  {
    var s := Snake([Cell(10, 10), Cell(10, 11), Cell(10, 12), Cell(10, 13)], 4, Up, 0, false);
    assert Turn(s, Down) == s;
  }

  /**
   * A full-length snake of 4 stepping onto an obstacle drops to length 3 and
   * loses a point without dying; its body keeps all 4 cells, one more than
   * the length, until the next move trims it.
   */
  lemma ObstacleShrinks(h: Direction)
    ensures var s := Snake([Cell(5, 5), Cell(5, 6), Cell(5, 7), Cell(5, 8)], 4, Up, 0, false);
            var r := HitObstacle(Move(s, h), Cell(5, 4), h);
            && Valid(s) && Valid(r) && r.length == 3 && r.score == -1 && !r.justReset
            && r.body == [Cell(5, 4), Cell(5, 5), Cell(5, 6), Cell(5, 7)]
            && |r.body| == r.length + 1
  {
    var s := Snake([Cell(5, 5), Cell(5, 6), Cell(5, 7), Cell(5, 8)], 4, Up, 0, false);
    var m := Move(s, h);
    assert !Collides(s, Cell(5, 4));
    assert m.body[1..] == s.body[..3];
    assert m.body == [Cell(5, 4)] + s.body[..3];
  }
}
